=== FILE: README.md ===
# RatTestSuite data core in Dafny

This project models the sequential logic of the RatTestSuite tools. The tools
build and hand-validate test data for translation systems. They share one JSON
shape: a list of `examples`, and each example holds:

- a `main_sentence`;
- `fuzzy_matches`, which are similar sentences, each with a `similarity_estimate`, a `validated` flag and `translations`;
- `terms`, which maps a phrase to translations carrying a `selected` flag.

The model covers four pieces:

- **Fuzzy-match generation** (`generate_fuzzies.py`). Every candidate sentence is
  re-scored as 1 − Levenshtein distance / longer length, or 1.0 when both
  strings are empty. The score overwrites `similarity_estimate`, and only
  candidates scoring at least the threshold are kept. Around this sits the loop
  that turns the model's `INDEX ||| LENGTH ||| DOMAIN ||| SENTENCE` answer into
  examples.
- **Term validator** (`validate_terms.py`). It covers:
  - the export, which drops deleted examples, unselected translations and terms left empty;
  - checkbox selection;
  - deletion, which closes the window once every example is deleted;
  - the skip over deleted indices;
  - Back and Forward.
- **Translation validator** (`validate_translations.py`). It covers:
  - the "fuzzy number, then translation number" input mode that toggles a translation's `validated` flag;
  - navigation, which resets the input mode;
  - deletion with index re-clamping.
- **Fuzzy validator** (`validate_fuzzies.py`). It covers:
  - one checkbox per fuzzy match;
  - digit keys that toggle them;
  - committing the checkboxes into the data before Back or Forward;
  - deletion with index re-clamping.

The project has these modules:

- `Wrappers`: `Option` and `Result`.
- `Seqs`: order-preserving sub-lists, filter, map and removal.
- `Text`: Python's `in` and `str.split`, with `Join` as the inverse of `Split`.
- `EditDistance`: the recursive distance, the score, and a two-row Wagner–Fischer method proved equal to it.
- `Corpus`: the JSON shape as datatypes.
- `FuzzyFilter`: `update_similarity_estimates`.
- `Generator`: the row loop of `main`.
- `Navigation`: the index bounds and delete clamping shared by the validators.
- `TermValidation`, `TranslationValidation` and `FuzzyValidation`: one per window.

Values replace mutation. Every operation returns a new document, so the deep
copies the tools make (`copy.deepcopy`, `json.loads(json.dumps(...))`) are
implicit: the caller's value cannot change. Two modelling conventions apply
throughout:

- An absent JSON flag (`validated`, `selected`) is `None` and reads as false.
- A fuzzy match without `translations` has the empty list.

## Model

| member | source | states |
|---|---|---|
| EditDistance.Distance | generate_fuzzies.py:28 | The least number of single-character insertions, deletions and substitutions (`Levenshtein.distance`); never more than deleting everything and inserting everything |
| EditDistance.DistanceAtMostLonger | generate_fuzzies.py:28-30 | The distance never exceeds the longer length, so the score's divisor bounds it |
| EditDistance.DistanceAtLeastLengthGap | generate_fuzzies.py:28 | The distance is at least the difference of the two lengths |
| EditDistance.DistanceZeroIffEqual | generate_fuzzies.py:28-30 | Distance 0 exactly when the two sentences are identical |
| EditDistance.DistanceSymmetric | generate_fuzzies.py:28 | The distance is the same in both directions |
| EditDistance.Similarity | generate_fuzzies.py:28-30 | The score lies in [0, 1] and is 1.0 exactly for identical sentences, including two empty ones |
| EditDistance.SimilaritySymmetric | generate_fuzzies.py:28-30 | The score does not depend on which sentence is the main one |
| EditDistance.DistanceByRows | generate_fuzzies.py:28 | The two-row Wagner–Fischer computation returns exactly the recursive distance |
| EditDistance.NextRow | generate_fuzzies.py:28 | From a correct table row `i`, builds a correct row `i + 1` |
| FuzzyFilter.Rescored | generate_fuzzies.py:25-33 | The estimate becomes the computed score whatever it was before; no other field changes |
| FuzzyFilter.KeptMatches | generate_fuzzies.py:22-40 | The result is exactly the re-scored candidates at the positions whose score reaches the threshold, in input order, repeated candidates included. Every kept match carries its score, which is at least the threshold; a candidate is kept exactly when its score reaches it |
| FuzzyFilter.KeptPositions | generate_fuzzies.py:33-37 | The filter over re-scored candidates keeps exactly the passing positions of the unscored list |
| FuzzyFilter.KeptScoresAndMembers | generate_fuzzies.py:33-37 | Every kept match carries its own passing score; a candidate is kept, re-scored, exactly when its score passes |
| FuzzyFilter.Filtered | generate_fuzzies.py:20-42 | Only `fuzzy_matches` is replaced; main sentence, domain and terms are unchanged |
| FuzzyFilter.UpdateSimilarityEstimates | generate_fuzzies.py:7-42 | The append-as-you-go loop returns exactly the filtered document |
| FuzzyFilter.KeptStep | generate_fuzzies.py:33-37 | Scoring one more candidate appends it to the kept list exactly when it reaches the threshold |
| FuzzyFilter.ThresholdMonotonic | generate_fuzzies.py:36-40 | A higher threshold keeps an order-preserving sub-list of what a lower one keeps |
| FuzzyFilter.FilterIdempotentOnOutput | generate_fuzzies.py:24-40 | Running the filter again on its own output with the same threshold changes nothing |
| FuzzyFilter.KeptMatchesOfScored | generate_fuzzies.py:24-40 | A list whose matches already carry their own scores, all at or above the threshold, passes through unchanged |
| FuzzyFilter.ZeroThresholdKeepsAll | generate_fuzzies.py:36-37 | A threshold of 0 or below keeps every candidate, re-scored |
| FuzzyFilter.IdenticalCandidates | generate_fuzzies.py:28-37 | A candidate equal to the main sentence scores 1.0 and survives every threshold up to 1.0. At threshold 1.0 only such candidates survive |
| Text.FindFrom | generate_fuzzies.py:153 | Finds the first occurrence of the separator at or after a position, or reports that none exists |
| Text.ContainsIffOccurs | generate_fuzzies.py:153 | The separator test on a row holds exactly when the separator occurs somewhere in the row |
| Text.Split | generate_fuzzies.py:151-155 | `str.split`: at least one piece; joining the pieces with the separator gives back the string; exactly one piece when the separator does not occur |
| Text.SplitCutsLeftmost | generate_fuzzies.py:151-155 | With more than one piece, the first piece ends at the first occurrence of the separator in the string, and the remaining pieces are the split of what follows it |
| Text.SplitPiecesFree | generate_fuzzies.py:155 | No piece of a split contains the separator |
| Text.SplitAfterPiece | generate_fuzzies.py:155 | A first piece that holds no character equal to the separator's first character splits off as the first field, and the rest splits the remainder |
| Generator.ParseRow | generate_fuzzies.py:153-155 | Skipped exactly when the row has no separator. A row with the separator parses exactly when it splits into four fields, and the fields are the split's pieces; otherwise it is an error carrying the split's piece count, which is 2, 3 or more than 4 |
| Generator.WrongFieldCountRow | generate_fuzzies.py:155 | Bar-free fields joined in any number other than four (at least two) give an unpacking error that reports that number |
| Text.SplitJoin | generate_fuzzies.py:155 | Splitting a join of pieces that are free of the separator's first character gives back the pieces |
| Generator.FourFieldRow | generate_fuzzies.py:155-158 | Such a row parses into exactly its four fields, unstripped, so `main_sentence` keeps its surrounding spaces |
| Generator.ProcessLine | generate_fuzzies.py:152-159 | One line: a malformed row fails with its error; a skipped row leaves the examples alone; a sentence row appends exactly one example |
| Generator.ExampleFor | generate_fuzzies.py:156-158 | The example for a sentence: that sentence as `main_sentence`, the generated candidates after the filter, and the generated domain and terms |
| Generator.ExamplesForContents | generate_fuzzies.py:156-159 | Example `k` has the `k`-th sentence row's fourth field, unstripped, as `main_sentence`. Its fuzzy matches are the generated candidates that pass the filter, and the generated domain and terms are kept |
| Generator.FirstUnpackErrorIff | generate_fuzzies.py:151-155 | The scan for the first unpacking error finds none exactly when no line is malformed. Otherwise it reports the error of a malformed line that has only good lines before it |
| Generator.FirstUnpackErrorOfPrefix | generate_fuzzies.py:151-155 | Once a prefix of the lines has an unpacking error, the lines after it do not change which error is reported |
| Generator.Advance | generate_fuzzies.py:151-159 | One loop turn either extends the examples by the line's contribution or stops at the first malformed line |
| Generator.ProcessLines | generate_fuzzies.py:151-159 | The loop fails exactly when some line is malformed, and then with the error of the first one (`FirstUnpackError`). Otherwise it returns one example per sentence row, in order |
| Generator.Lines | generate_fuzzies.py:151 | `answer.split("\n")`: at least one line, the lines rejoin to the answer, and no line holds a newline |
| Generator.BuildCorpus | generate_fuzzies.py:148-159 | The same, for the lines of the model's answer split on newlines |
| Seqs.FilterByIndices | generate_fuzzies.py:36-37 | The filter keeps exactly the elements at the passing positions, in order, so repeated elements keep their multiplicity |
| Seqs.FilterMembers | generate_fuzzies.py:36-37 | A list element is kept exactly when it passes the test, and nothing else is kept |
| Seqs.FilterIsSubsequence | generate_fuzzies.py:22-40 | Filtering keeps the original order |
| Seqs.FilterMonotonic | generate_fuzzies.py:36-40 | A stronger test keeps an order-preserving sub-list of what a weaker test keeps |
| Seqs.FilterAll | validate_terms.py:51 | When every element passes, the filter keeps the list as is |
| Seqs.MapFilterIsMapOfFilter | generate_fuzzies.py:151-159 | Building element by element with skips equals filtering first and mapping after |
| Seqs.IndicesWhere | validate_translations.py:141 | The positions of the matching elements, increasing, all of them and only them |
| Seqs.IndicesWhereSamePattern | validate_translations.py:141 | The positions depend only on which elements pass: two lists that pass their tests at the same places have the same positions |
| Navigation.Back | validate_fuzzies.py:260-264 | Stays in bounds. Moves exactly when not at the first example, and by exactly one step |
| Navigation.Forward | validate_fuzzies.py:266-270 | Stays in bounds. Moves exactly when not at the last example, and by exactly one step |
| Navigation.IndexAfterDelete | validate_fuzzies.py:297-299 | Unchanged when still in range, otherwise `max(0, len - 1)`; always in bounds |
| Navigation.DeleteAt | validate_translations.py:287-291 | Exactly the current example goes and the others keep their order; the index is re-clamped into bounds |
| TermValidation.SelectedOnly | validate_terms.py:49-51 | The term keeps exactly the translations at the selected positions, in order, duplicates included; an absent flag counts as unselected |
| TermValidation.SelectedOnlyNonEmpty | validate_terms.py:49-54 | A term keeps some translation exactly when one of its translations is selected |
| TermValidation.ExportTerms | validate_terms.py:45-54 | Every surviving term has a non-empty list of selected translations. Every output term is an input term reduced to its selected translations |
| TermValidation.ExportTermsIsFilteredMap | validate_terms.py:45-54 | The export is exactly: every term reduced to its selected translations, in dictionary order, with the empty ones dropped; so the survivors keep their order |
| TermValidation.ExportTermsMembers | validate_terms.py:45-54 | A term survives, reduced to its selected translations, exactly when it has a selected translation |
| TermValidation.ExportKeepsExported | validate_terms.py:45-54 | A terms map whose terms are all non-empty and fully selected is left as it is |
| TermValidation.ExportTermsIdempotent | validate_terms.py:45-54 | Exporting an exported terms map changes nothing |
| TermValidation.ExportExample | validate_terms.py:45-54 | Only `terms` changes; an example without `terms` passes through untouched |
| TermValidation.UndeletedIndices | validate_terms.py:39-42 | The non-deleted indices, in increasing order, all of them and only them |
| TermValidation.KeepUndeleted | validate_terms.py:39-42 | Exactly the examples whose original index is not deleted, in the original order |
| TermValidation.SaveValidatedTerms | validate_terms.py:32-54 | The saved list is the undeleted examples, in order, each with its terms exported |
| TermValidation.SaveIdempotent | validate_terms.py:36-54 | Saving the saved output again, with nothing deleted, reproduces it |
| TermValidation.AllIndicesKept | validate_terms.py:39-42 | With nothing deleted, every index survives, in order |
| TermValidation.UpdateTranslationSelection | validate_terms.py:307-322 | In range, exactly the addressed translation gets `selected` set to the checkbox state, and nothing else changes. Out of range, nothing changes |
| TermValidation.Indices | validate_terms.py:63 | The index set `0 .. n-1`, of size `n` |
| TermValidation.DeletedCountReachesAll | validate_terms.py:63 | A set of example indices has at least `n` elements exactly when it holds every index |
| TermValidation.CyclicAt | validate_terms.py:191 | The position a given number of steps of `(i + 1) % n` after the start stays in range |
| TermValidation.SuccessorIsMod | validate_terms.py:191 | `(i + 1) % n` is `i + 1`, or 0 past the end |
| TermValidation.CyclicStep | validate_terms.py:191 | Each further offset is one more turn of `(i + 1) % n` |
| TermValidation.CyclicCovers | validate_terms.py:190-191 | Every index is reached within one full turn |
| TermValidation.SkipOffset | validate_terms.py:190-191 | When some index is free, the loop stops within one turn, on a free index, after passing only deleted ones |
| TermValidation.SkipDeleted | validate_terms.py:190-191 | The skip ends on an in-range, non-deleted index, and leaves a non-deleted start alone |
| TermValidation.DeleteCurrent | validate_terms.py:60-67 | The current index joins the deleted set. The window closes exactly when every index is deleted. Otherwise it stays open on a valid state at the first free index reached from the current one by repeated `(i + 1) % n`, wrapping to the start |
| TermValidation.PrevExample | validate_terms.py:400-403 | Keeps the window valid; at the first example nothing changes; otherwise one step back, then the skip |
| TermValidation.NextExample | validate_terms.py:405-409 | Keeps the window valid; at the last example nothing changes; otherwise one step forward, then the skip |
| TermValidation.NavigationWithoutDeletions | validate_terms.py:400-409 | With nothing deleted, Back and Forward are the plain bounded one-step moves |
| TermValidation.BackOntoDeletedStays | validate_terms.py:190-191 | Back onto a deleted example skips forward again and lands on the example just left |
| TermValidation.ForwardPastDeletedTailWraps | validate_terms.py:190-191 | Forward when every later example is deleted wraps round to an earlier or the same example |
| TranslationValidation.CheckTranslation | validate_translations.py:139-150 | With no examples it raises. Fuzzy numbers count only matches that have translations. In range, exactly one translation's flag is flipped and stored as present. Out of range, nothing changes |
| TranslationValidation.ToggleTwiceRestores | validate_translations.py:150 | Toggling the same numbers twice restores the flag's value, and the whole document when the flag was present |
| TranslationValidation.ToggleKeepsPositions | validate_translations.py:141-150 | A toggle does not change which fuzzy match each number addresses |
| TranslationValidation.HandleNumberInput | validate_translations.py:108-129 | Idle: a number enters fuzzy-input mode and is stored. Fuzzy-input: it checks that translation and returns to idle, or raises with `check_translation`. With only translation-input mode set, nothing happens |
| TranslationValidation.PreviousExample | validate_translations.py:264-268 | Stays in bounds; one step back when possible, with the input mode reset; otherwise nothing changes |
| TranslationValidation.NextExample | validate_translations.py:270-274 | Stays in bounds; one step forward when possible, with the input mode reset; otherwise nothing changes |
| TranslationValidation.DeleteExample | validate_translations.py:276-293 | No examples or no confirmation: nothing changes. Otherwise exactly the current example goes, the others keep their order, the index is re-clamped, and the input mode is kept |
| TranslationValidation.Step | validate_translations.py:97-103 | One shortcut: only a number typed in fuzzy-input mode with no example left can fail; B and F never edit the examples; the index stays in bounds |
| TranslationValidation.Run | validate_translations.py:97-103 | Any run of key presses keeps the index in bounds |
| TranslationValidation.TransInputNeverSet | validate_translations.py:108-129 | From a state without translation-input mode, no run of key presses ever sets it |
| TranslationValidation.InitialIdle | validate_translations.py:66 | The window as opened never reaches translation-input mode |
| FuzzyValidation.Display | validate_fuzzies.py:181-229 | One checkbox per fuzzy match of the current example, checked as its flag; none when no example is left |
| FuzzyValidation.Initial | validate_fuzzies.py:17 | The opened window is on the first example with one checkbox per match |
| FuzzyValidation.SaveCurrentSelections | validate_fuzzies.py:252-258 | Each fuzzy match of the current example takes its checkbox state as a present flag. Nothing else changes. With no examples, nothing happens |
| FuzzyValidation.SaveThenDisplay | validate_fuzzies.py:181-258 | Redisplaying after a save shows exactly the checkboxes that were saved |
| FuzzyValidation.SaveDisplayedKeepsFlags | validate_fuzzies.py:181-258 | Saving untouched checkboxes keeps every flag's value |
| FuzzyValidation.KeyDigit | validate_fuzzies.py:173-177 | Digit `k` from 1 to 9 flips checkbox `k - 1` when it exists, and no other checkbox; the data is untouched |
| FuzzyValidation.KeyDigitTwice | validate_fuzzies.py:173-177 | Pressing the same digit twice restores the checkboxes |
| FuzzyValidation.PrevExample | validate_fuzzies.py:260-264 | Commits the checkboxes first, then steps back by one when possible and redisplays; the window stays valid |
| FuzzyValidation.NextExample | validate_fuzzies.py:266-270 | Commits the checkboxes first, then steps forward by one when possible and redisplays; the window stays valid |
| FuzzyValidation.NextThenPrevShowsSaved | validate_fuzzies.py:252-270 | Forward then Back shows the checkboxes as they were left |
| FuzzyValidation.DeleteExample | validate_fuzzies.py:272-301 | No examples or no confirmation: nothing changes. Otherwise exactly the current example goes, the others keep their order, the index is re-clamped and the display rebuilt |
| FuzzyValidation.Press | validate_fuzzies.py:166-179 | Every key keeps the window valid |
| FuzzyValidation.Run | validate_fuzzies.py:166-179 | Every run of key presses keeps the window valid |
| FuzzyValidation.RunKeepsShape | validate_fuzzies.py:166-179 | Without Delete, key presses never add or drop examples or fuzzy matches, and change no field but the matches' `validated` flags |

## Left out

- The language-model calls (`generate_main_sentences` and `generate_fuzzies`, generate_fuzzies.py:46-122) are prompt text and network requests. They become the parameter `generate` and the input `answer` of `Generator.BuildCorpus`. `generate_terms.py` and `generate_fuzzy_tests.py` hold only such calls and are not part of this model.
- The Qt layer is not modelled: widgets, styling, scrolling, timers, status texts and file dialogs. A confirmation dialog becomes a `confirmed: bool` parameter. The term validator's keyboard term-selection mode (validate_terms.py:346-395) is not modelled as keys. A digit in that mode toggles a checkbox (line 390), whose signal (line 248) runs `update_translation_selection` (lines 307-322), so its effect on the document is `TermValidation.UpdateTranslationSelection` with the negated flag. Only the mode's bookkeeping (which term is selected, Escape, and the N scroll) is left out.
- Mouse clicks and typing are not modelled as events, only key presses. So `TranslationValidation.Run`, `TranslationValidation.TransInputNeverSet` and `FuzzyValidation.RunKeepsShape` speak about keyboard runs only. Left out are: clicking a translation checkbox, which sets `validated` (validate_translations.py:233-235); typing in a translation box, which rewrites `target` (validate_translations.py:175-177, 252-254); and clicking any fuzzy-validator checkbox, including the tenth and later that no digit reaches, which changes what the next commit saves.
- File reading and writing, JSON (de)serialisation, output file names and argparse are not modelled.
- `highlight_word_differences` (validate_fuzzies.py:37-85) is not modelled. It relies on `difflib` opcodes and Qt text formatting.
- The distance is defined mathematically, not by python-Levenshtein's implementation. Scores and thresholds are exact `real`s, so IEEE rounding at the exact threshold is not modelled.
- The document is never `None`. `validate_translations.py` guards `self.data` being unset in navigation and deletion. Here an unloaded file is the empty example list.
- `check_translation` also updates the checkbox of the shown fuzzy match. That is widget state and is not modelled.
- FuzzyFilter.KeptMatches: assumes every candidate carries a `sentence` and every example a `fuzzy_matches` list. `update_similarity_estimates` reads both without a default (generate_fuzzies.py:24-25), so a missing key raises `KeyError` there; the model's types make both fields mandatory, so that input cannot be built.
- Generator.BuildCorpus: `generate` is a deterministic function, one answer per sentence. Two rows with the same sentence therefore get the same candidates, while the program makes a separate language-model request for each row and may get different answers.
- FuzzyValidation.Display: assumes every example carries `main_sentence` and every fuzzy match a `sentence`. `update_display` reads both without a default (validate_fuzzies.py:198, 242), so a missing key raises `KeyError` there. The model's example type makes `main_sentence` optional, and the fuzzy validator never reads it, so such an example is displayed instead of failing.

## Behaviour notes

These describe behaviour that is modelled as the code does it:

- The generator's `ProcessLine`, like the other generator members, takes the unpacking error as a value. The Python `ValueError` from `index,length,domain,sentence = ...` ends the program; here it is a `Failure`.
- Navigation in the translation validator (`PreviousExample` and `NextExample`) resets the input mode only when the index moves. The code calls `reset_input_mode` inside the `if`, so a blocked move keeps a pending fuzzy number. Deleting never resets the mode.
- Deleting in the term validator (`DeleteCurrent`) re-clamps with `min(index, len - 1)` before the skip, as the code does. The index is always in range by then, so the clamp never changes it.
- The lemmas `BackOntoDeletedStays` and `ForwardPastDeletedTailWraps` record how Back and Forward behave next to deleted examples. The skip loop always runs forward, so Back onto a deleted example returns to the current one, and Forward over a deleted tail wraps to the start. These are modelled as written.

=== FILE: corpus.dfy ===
/** The JSON document shared by the generator and the three validators:
    `{"examples": [Example, ...]}`. Optional JSON keys are `Option`s; a flag
    that is absent reads as false, as `dict.get(key, False)` does. */
module Corpus {
  import opened Wrappers

  /** Semantic category the generator assigns to a fuzzy match; never recomputed. */
  datatype FuzzyType = Deletion | Addition | Replacement

  /** One candidate translation of a fuzzy match. */
  datatype Translation = Translation(target: string, validated: Option<bool>) {
    predicate Validated() {
      validated.GetOr(false)
    }
  }

  /** A candidate sentence close to the main sentence. An absent
      `translations` key is the empty list (the source only tests truthiness). */
  datatype FuzzyMatch = FuzzyMatch(
    kind: FuzzyType,
    sentence: string,
    similarityEstimate: Option<real>,
    validated: Option<bool>,
    translations: seq<Translation>)
  {
    predicate Validated() {
      validated.GetOr(false)
    }
  }

  /** A regular-expression check attached to a term translation. */
  datatype TermTest = TermTest(kind: string, condition: string)

  /** One alternative target-language rendering of a term. */
  datatype TermTranslation = TermTranslation(target: string, tests: seq<TermTest>, selected: Option<bool>) {
    predicate Selected() {
      selected.GetOr(false)
    }
  }

  /** One entry of an example's `terms` dictionary; the dictionary keeps
      insertion order, so it is a sequence of entries. The phrases of one
      example are assumed distinct, as the keys of a JSON object are. */
  datatype Term = Term(phrase: string, translations: seq<TermTranslation>)

  datatype Example = Example(
    mainSentence: Option<string>,
    domain: Option<string>,
    fuzzyMatches: seq<FuzzyMatch>,
    terms: Option<seq<Term>>)
}

=== FILE: editdistance.dfy ===
/** Unit-cost Levenshtein distance (insertion, deletion, substitution; no
    transpositions) over sequences of any comparable token, the normalised
    similarity derived from it, and a two-row Wagner-Fischer computation
    proved equal to the recursive definition. */
module EditDistance {

  function Min3(x: nat, y: nat, z: nat): nat {
    if x <= y && x <= z then x else if y <= z then y else z
  }

  function Max(x: nat, y: nat): nat {
    if x >= y then x else y
  }

  /** Cost of turning token `x` into token `y`. */
  function Cost<T(==)>(x: T, y: T): nat {
    if x == y then 0 else 1
  }

  /** The least number of single-token insertions, deletions and
      substitutions that turn `a` into `b`, by recursion on the last tokens. */
  function Distance<T(==)>(a: seq<T>, b: seq<T>): (r: nat)
    ensures r <= |a| + |b|
    decreases |a| + |b|
  {
    if |a| == 0 then |b|
    else if |b| == 0 then |a|
    else
      Min3(Distance(a[..|a| - 1], b) + 1,
           Distance(a, b[..|b| - 1]) + 1,
           Distance(a[..|a| - 1], b[..|b| - 1]) + Cost(a[|a| - 1], b[|b| - 1]))
  }

  /** The distance never exceeds the longer length: substitute along the
      common length and insert or delete the rest. */
  lemma {:induction false} DistanceAtMostLonger<T>(a: seq<T>, b: seq<T>)
    ensures Distance(a, b) <= Max(|a|, |b|)
    decreases |a| + |b|
  {
    if |a| > 0 && |b| > 0 {
      DistanceAtMostLonger(a[..|a| - 1], b[..|b| - 1]);
    }
  }

  /** The distance is at least the difference of the lengths. */
  lemma {:induction false} DistanceAtLeastLengthGap<T>(a: seq<T>, b: seq<T>)
    ensures Distance(a, b) >= |a| - |b| && Distance(a, b) >= |b| - |a|
    decreases |a| + |b|
  {
    if |a| > 0 && |b| > 0 {
      DistanceAtLeastLengthGap(a[..|a| - 1], b);
      DistanceAtLeastLengthGap(a, b[..|b| - 1]);
      DistanceAtLeastLengthGap(a[..|a| - 1], b[..|b| - 1]);
    }
  }

  /** Distance zero means identical sequences, and conversely. */
  lemma {:induction false} DistanceZeroIffEqual<T>(a: seq<T>, b: seq<T>)
    ensures Distance(a, b) == 0 <==> a == b
    decreases |a| + |b|
  {
    if |a| > 0 && |b| > 0 {
      var a', b' := a[..|a| - 1], b[..|b| - 1];
      DistanceZeroIffEqual(a', b');
      assert a == a' + [a[|a| - 1]];
      assert b == b' + [b[|b| - 1]];
      if a == b {
        assert a' == b';
      }
    }
  }

  /** Turning `a` into `b` costs the same as turning `b` into `a`. */
  lemma {:induction false} DistanceSymmetric<T>(a: seq<T>, b: seq<T>)
    ensures Distance(a, b) == Distance(b, a)
    decreases |a| + |b|
  {
    if |a| > 0 && |b| > 0 {
      DistanceSymmetric(a[..|a| - 1], b);
      DistanceSymmetric(a, b[..|b| - 1]);
      DistanceSymmetric(a[..|a| - 1], b[..|b| - 1]);
    }
  }

  /** Real-arithmetic facts behind the score's range and its value 1.0. */
  lemma ScoreBounds(d: nat, m: nat)
    requires 0 < m && d <= m
    ensures 0.0 <= 1.0 - (d as real) / (m as real) <= 1.0
    ensures 1.0 - (d as real) / (m as real) == 1.0 <==> d == 0
  {
    var q := (d as real) / (m as real);
    assert q * (m as real) == d as real;
    assert q <= 1.0 by {
      if q > 1.0 {
        assert q * (m as real) > m as real;
      }
    }
    assert q >= 0.0;
  }

  /** Normalised similarity: 1 - distance / longer length, and 1.0 for two
      empty sequences. On characters this is the fuzzy-match score. */
  function Similarity<T(==)>(a: seq<T>, b: seq<T>): (r: real)
    ensures 0.0 <= r <= 1.0
    ensures r == 1.0 <==> a == b
  {
    var longer := Max(|a|, |b|);
    DistanceAtMostLonger(a, b);
    DistanceZeroIffEqual(a, b);
    if longer > 0 then ScoreBounds(Distance(a, b), longer); 1.0 - (Distance(a, b) as real) / (longer as real) else 1.0
  }

  /** The score does not depend on the argument order. */
  lemma SimilaritySymmetric<T>(a: seq<T>, b: seq<T>)
    ensures Similarity(a, b) == Similarity(b, a)
  {
    DistanceSymmetric(a, b);
  }

  /** One Wagner-Fischer cell: the recursive definition unfolded at the
      prefixes `a[..i+1]` and `b[..j+1]`. */
  lemma DistanceStep<T>(a: seq<T>, b: seq<T>, i: nat, j: nat)
    requires i < |a| && j < |b|
    ensures Distance(a[..i + 1], b[..j + 1])
         == Min3(Distance(a[..i], b[..j + 1]) + 1,
                 Distance(a[..i + 1], b[..j]) + 1,
                 Distance(a[..i], b[..j]) + Cost(a[i], b[j]))
  {
    assert a[..i + 1][..i] == a[..i];
    assert b[..j + 1][..j] == b[..j];
  }

  /** A cell computed from its three neighbours holds the distance of its prefixes. */
  lemma NextCell<T>(a: seq<T>, b: seq<T>, i: nat, j: nat, diagonal: nat, up: nat, left: nat)
    requires i < |a| && j < |b|
    requires diagonal == Distance(a[..i], b[..j])
    requires up == Distance(a[..i], b[..j + 1])
    requires left == Distance(a[..i + 1], b[..j])
    ensures Min3(up + 1, left + 1, diagonal + Cost(a[i], b[j])) == Distance(a[..i + 1], b[..j + 1])
  {
    DistanceStep(a, b, i, j);
  }

  /** The first column and first row of the table. */
  lemma DistanceBorders<T>(a: seq<T>, b: seq<T>, i: nat, j: nat)
    requires i <= |a| && j <= |b|
    ensures Distance(a[..i], b[..0]) == i
    ensures Distance(a[..0], b[..j]) == j
  {
  }

  /** Computes `Distance(a, b)` row by row, keeping only the previous row. */
  method DistanceByRows<T(==)>(a: seq<T>, b: seq<T>) returns (d: nat)
    ensures d == Distance(a, b)
  {
    var prev: seq<nat> := seq(|b| + 1, j => j);
    forall j | 0 <= j <= |b|
      ensures prev[j] == Distance(a[..0], b[..j])
    {
      DistanceBorders(a, b, 0, j);
    }
    var i := 0;
    while i < |a|
      invariant 0 <= i <= |a|
      invariant |prev| == |b| + 1
      invariant forall j :: 0 <= j <= |b| ==> prev[j] == Distance(a[..i], b[..j])
    {
      prev := NextRow(a, b, i, prev);
      i := i + 1;
    }
    assert a[..|a|] == a && b[..|b|] == b;
    d := prev[|b|];
  }

  /** Row `i + 1` of the table from row `i`. */
  method NextRow<T(==)>(a: seq<T>, b: seq<T>, i: nat, prev: seq<nat>) returns (cur: seq<nat>)
    requires i < |a| && |prev| == |b| + 1
    requires forall j :: 0 <= j <= |b| ==> prev[j] == Distance(a[..i], b[..j])
    ensures |cur| == |b| + 1
    ensures forall j :: 0 <= j <= |b| ==> cur[j] == Distance(a[..i + 1], b[..j])
  {
    DistanceBorders(a, b, i + 1, 0);
    cur := [i + 1];
    var j := 0;
    while j < |b|
      invariant 0 <= j <= |b|
      invariant |cur| == j + 1
      invariant forall k :: 0 <= k <= j ==> cur[k] == Distance(a[..i + 1], b[..k])
    {
      var cell := Min3(prev[j + 1] + 1, cur[j] + 1, prev[j] + Cost(a[i], b[j]));
      NextCell(a, b, i, j, prev[j], prev[j + 1], cur[j]);
      var next := cur + [cell];
      assert forall k :: 0 <= k <= j ==> next[k] == cur[k];
      cur := next;
      j := j + 1;
    }
  }
}

=== FILE: fuzzyfilter.dfy ===
/** Re-scoring and threshold filtering of generated fuzzy matches
    (`update_similarity_estimates`). */
module FuzzyFilter {
  import opened Wrappers
  import opened Seqs
  import opened Corpus
  import opened EditDistance

  /** The match with its estimate overwritten by the character-level score
      against `main`; any estimate it arrived with is discarded. */
  function Rescored(main: string, m: FuzzyMatch): (r: FuzzyMatch)
    ensures r.similarityEstimate == Some(Similarity(main, m.sentence))
    ensures r.(similarityEstimate := m.similarityEstimate) == m
  {
    m.(similarityEstimate := Some(Similarity(main, m.sentence)))
  }

  /** Every candidate re-scored, in input order. */
  function RescoredAll(main: string, ms: seq<FuzzyMatch>): (r: seq<FuzzyMatch>)
    ensures |r| == |ms|
    ensures forall k :: 0 <= k < |ms| ==> r[k] == Rescored(main, ms[k])
  {
    seq(|ms|, k requires 0 <= k < |ms| => Rescored(main, ms[k]))
  }

  /** The inclusive acceptance test on an already scored match. */
  function Keep(threshold: real): FuzzyMatch -> bool {
    (m: FuzzyMatch) => m.similarityEstimate.Some? && m.similarityEstimate.value >= threshold
  }

  /** The acceptance test on an unscored candidate: its score against `main`
      reaches the threshold. */
  function Passes(main: string, threshold: real): FuzzyMatch -> bool {
    (m: FuzzyMatch) => Similarity(main, m.sentence) >= threshold
  }

  /** The matches that survive: scored, then kept when the score is at least
      the threshold. */
  function KeptMatches(main: string, ms: seq<FuzzyMatch>, threshold: real): (r: seq<FuzzyMatch>)
    ensures |r| <= |ms|
    ensures |r| == |IndicesWhere(Passes(main, threshold), ms)|
    ensures forall k :: 0 <= k < |r| ==> r[k] == Rescored(main, ms[IndicesWhere(Passes(main, threshold), ms)[k]])
    ensures forall k :: 0 <= k < |r| ==>
      r[k].similarityEstimate == Some(Similarity(main, r[k].sentence)) && Similarity(main, r[k].sentence) >= threshold
    ensures forall m :: m in ms ==> (Similarity(main, m.sentence) >= threshold <==> Rescored(main, m) in r)
    ensures IsSubsequence(r, RescoredAll(main, ms))
  {
    var all := RescoredAll(main, ms);
    KeptScoresAndMembers(main, ms, threshold);
    FilterIsSubsequence(Keep(threshold), all);
    KeptPositions(main, ms, threshold);
    Filter(Keep(threshold), all)
  }

  /** Every kept match carries its own passing score, and a candidate is kept,
      re-scored, exactly when its score passes. */
  lemma KeptScoresAndMembers(main: string, ms: seq<FuzzyMatch>, threshold: real)
    ensures forall k :: 0 <= k < |Filter(Keep(threshold), RescoredAll(main, ms))| ==>
      var m := Filter(Keep(threshold), RescoredAll(main, ms))[k];
      m.similarityEstimate == Some(Similarity(main, m.sentence)) && Similarity(main, m.sentence) >= threshold
    ensures forall m :: m in ms ==>
      (Similarity(main, m.sentence) >= threshold <==> Rescored(main, m) in Filter(Keep(threshold), RescoredAll(main, ms)))
  {
    var all := RescoredAll(main, ms);
    var r := Filter(Keep(threshold), all);
    FilterMembers(Keep(threshold), all);
    forall k | 0 <= k < |r|
      ensures r[k].similarityEstimate == Some(Similarity(main, r[k].sentence))
    {
      assert r[k] in all;
    }
    forall m | m in ms
      ensures Similarity(main, m.sentence) >= threshold <==> Rescored(main, m) in r
    {
      var i :| 0 <= i < |ms| && ms[i] == m;
      assert all[i] == Rescored(main, m);
    }
  }

  /** The kept matches are the re-scored candidates at the passing positions. */
  lemma KeptPositions(main: string, ms: seq<FuzzyMatch>, threshold: real)
    ensures |Filter(Keep(threshold), RescoredAll(main, ms))| == |IndicesWhere(Passes(main, threshold), ms)|
    ensures forall k :: 0 <= k < |Filter(Keep(threshold), RescoredAll(main, ms))| ==>
      Filter(Keep(threshold), RescoredAll(main, ms))[k] == Rescored(main, ms[IndicesWhere(Passes(main, threshold), ms)[k]])
  {
    var all := RescoredAll(main, ms);
    var r := Filter(Keep(threshold), all);
    var ix := IndicesWhere(Passes(main, threshold), ms);
    assert forall j :: 0 <= j < |all| ==> Keep(threshold)(all[j]) == Passes(main, threshold)(ms[j]);
    IndicesWhereSamePattern(Keep(threshold), all, Passes(main, threshold), ms);
    FilterByIndices(Keep(threshold), all);
    forall k | 0 <= k < |r|
      ensures r[k] == Rescored(main, ms[ix[k]])
    {
      assert r[k] == all[ix[k]];
    }
  }

  /** The filtered document: `fuzzy_matches` replaced by the kept matches. */
  function Filtered(main: string, data: Example, threshold: real): (r: Example)
    ensures r.mainSentence == data.mainSentence && r.domain == data.domain && r.terms == data.terms
    ensures r.fuzzyMatches == KeptMatches(main, data.fuzzyMatches, threshold)
  {
    data.(fuzzyMatches := KeptMatches(main, data.fuzzyMatches, threshold))
  }

  /** The source's loop: score each match in turn, overwrite its estimate and
      append it when it reaches the threshold. Works on a value, so the
      caller's document is untouched. */
  method UpdateSimilarityEstimates(main: string, unfiltered: Example, threshold: real) returns (data: Example)
    ensures data == Filtered(main, unfiltered, threshold)
  {
    var ms := unfiltered.fuzzyMatches;
    var filtered: seq<FuzzyMatch> := [];
    var i := 0;
    while i < |ms|
      invariant 0 <= i <= |ms|
      invariant filtered == Filter(Keep(threshold), RescoredAll(main, ms[..i]))
    {
      var score := Similarity(main, ms[i].sentence);
      var m := ms[i].(similarityEstimate := Some(score));
      KeptStep(main, ms, i, threshold);
      if score >= threshold {
        filtered := filtered + [m];
      }
      i := i + 1;
    }
    assert ms[..i] == ms;
    data := unfiltered.(fuzzyMatches := filtered);
  }

  /** Scoring one more match appends it to the kept ones exactly when its
      score reaches the threshold. */
  lemma KeptStep(main: string, ms: seq<FuzzyMatch>, i: nat, threshold: real)
    requires i < |ms|
    ensures Filter(Keep(threshold), RescoredAll(main, ms[..i + 1]))
         == Filter(Keep(threshold), RescoredAll(main, ms[..i]))
            + (if Similarity(main, ms[i].sentence) >= threshold then [Rescored(main, ms[i])] else [])
  {
    assert RescoredAll(main, ms[..i + 1]) == RescoredAll(main, ms[..i]) + [Rescored(main, ms[i])];
    FilterAppend(Keep(threshold), RescoredAll(main, ms[..i]), Rescored(main, ms[i]));
  }

  /** Raising the threshold keeps an order-preserving sub-list of what a
      lower threshold keeps. */
  lemma ThresholdMonotonic(main: string, ms: seq<FuzzyMatch>, lower: real, higher: real)
    requires lower <= higher
    ensures IsSubsequence(KeptMatches(main, ms, higher), KeptMatches(main, ms, lower))
  {
    FilterMonotonic(Keep(higher), Keep(lower), RescoredAll(main, ms));
  }

  /** Filtering the output again with the same threshold changes nothing:
      no further removals and no change of score. */
  lemma FilterIdempotentOnOutput(main: string, ms: seq<FuzzyMatch>, threshold: real)
    ensures KeptMatches(main, KeptMatches(main, ms, threshold), threshold) == KeptMatches(main, ms, threshold)
  {
    KeptMatchesOfScored(main, KeptMatches(main, ms, threshold), threshold);
  }

  /** A list whose every match already carries its own score, at or above the
      threshold, passes through the filter unchanged. */
  lemma KeptMatchesOfScored(main: string, ms: seq<FuzzyMatch>, threshold: real)
    requires forall k :: 0 <= k < |ms| ==>
      ms[k].similarityEstimate == Some(Similarity(main, ms[k].sentence)) && Similarity(main, ms[k].sentence) >= threshold
    ensures KeptMatches(main, ms, threshold) == ms
  {
    assert RescoredAll(main, ms) == ms;
    FilterAll(Keep(threshold), ms);
  }

  /** A threshold of zero or below keeps every candidate, re-scored. */
  lemma ZeroThresholdKeepsAll(main: string, ms: seq<FuzzyMatch>, threshold: real)
    requires threshold <= 0.0
    ensures KeptMatches(main, ms, threshold) == RescoredAll(main, ms)
  {
    FilterAll(Keep(threshold), RescoredAll(main, ms));
  }

  /** A candidate equal to the main sentence scores exactly 1.0 and survives
      every threshold up to 1.0; a threshold of 1.0 keeps nothing else. */
  lemma IdenticalCandidates(main: string, ms: seq<FuzzyMatch>, threshold: real)
    ensures forall m :: m in ms && m.sentence == main && threshold <= 1.0 ==>
      Rescored(main, m) in KeptMatches(main, ms, threshold) && Rescored(main, m).similarityEstimate == Some(1.0)
    ensures threshold == 1.0 ==> forall k :: 0 <= k < |KeptMatches(main, ms, threshold)| ==>
      KeptMatches(main, ms, threshold)[k].sentence == main
  {
  }
}

=== FILE: fuzzyvalidator.dfy ===
/** The fuzzy-match validator (`FuzzyValidator`) without its widgets: one
    checkbox per fuzzy match of the current example, committed to the
    matches' `validated` flags when the user moves away. */
module FuzzyValidation {
  import opened Wrappers
  import opened Corpus
  import Navigation

  /** `current_data["examples"]`, `current_index`, and the checked state of
      `self.checkboxes`. */
  datatype FuzzyValidator = FuzzyValidator(examples: seq<Example>, index: nat, checks: seq<bool>)

  /** The checkboxes `update_display` builds: one per fuzzy match of the
      current example, checked as its `validated` flag (absent reads as
      unchecked); none when no example is left. */
  function Display(examples: seq<Example>, index: nat): (r: seq<bool>)
    requires Navigation.InBounds(index, |examples|)
    ensures examples == [] ==> r == []
    ensures examples != [] ==>
      && |r| == |examples[index].fuzzyMatches|
      && forall i :: 0 <= i < |r| ==> r[i] == examples[index].fuzzyMatches[i].Validated()
  {
    if examples == [] then []
    else seq(|examples[index].fuzzyMatches|, i requires 0 <= i < |examples[index].fuzzyMatches| =>
               examples[index].fuzzyMatches[i].Validated())
  }

  /** The index is in range and there is exactly one checkbox per shown fuzzy match. */
  predicate Valid(s: FuzzyValidator) {
    && Navigation.InBounds(s.index, |s.examples|)
    && |s.checks| == |Display(s.examples, s.index)|
  }

  /** The window as opened on a file. */
  function Initial(examples: seq<Example>): (r: FuzzyValidator)
    ensures Valid(r) && r.index == 0
  {
    FuzzyValidator(examples, 0, Display(examples, 0))
  }

  /** `save_current_selections`: every fuzzy match of the current example
      takes its checkbox's state as its `validated` flag; nothing else changes. */
  function SaveCurrentSelections(s: FuzzyValidator): (r: seq<Example>)
    requires Valid(s)
    ensures s.examples == [] ==> r == []
    ensures |r| == |s.examples|
    ensures forall j :: 0 <= j < |r| && j != s.index ==> r[j] == s.examples[j]
    ensures s.examples != [] ==>
      var ms := s.examples[s.index].fuzzyMatches;
      && r[s.index].(fuzzyMatches := []) == s.examples[s.index].(fuzzyMatches := [])
      && |r[s.index].fuzzyMatches| == |ms|
      && forall i :: 0 <= i < |ms| ==>
           && r[s.index].fuzzyMatches[i].validated == Some(s.checks[i])
           && r[s.index].fuzzyMatches[i].(validated := None) == ms[i].(validated := None)
  {
    if s.examples == [] then s.examples
    else
      var example := s.examples[s.index];
      var ms := example.fuzzyMatches;
      var committed := seq(|ms|, i requires 0 <= i < |ms| => ms[i].(validated := Some(s.checks[i])));
      s.examples[s.index := example.(fuzzyMatches := committed)]
  }

  /** Redisplaying the current example after saving shows exactly the
      checkboxes that were saved. */
  lemma SaveThenDisplay(s: FuzzyValidator)
    requires Valid(s)
    ensures Display(SaveCurrentSelections(s), s.index) == s.checks
  {
    var r := SaveCurrentSelections(s);
    if s.examples != [] {
      var d := Display(r, s.index);
      assert forall i :: 0 <= i < |d| ==> d[i] == r[s.index].fuzzyMatches[i].Validated() == s.checks[i];
    }
  }

  /** Saving the checkboxes as displayed keeps every flag's value. */
  lemma SaveDisplayedKeepsFlags(examples: seq<Example>, index: nat)
    requires Navigation.InBounds(index, |examples|)
    ensures
      var r := SaveCurrentSelections(FuzzyValidator(examples, index, Display(examples, index)));
      && |r| == |examples|
      && (forall j :: 0 <= j < |r| ==> |r[j].fuzzyMatches| == |examples[j].fuzzyMatches|)
      && forall j, i :: 0 <= j < |r| && 0 <= i < |r[j].fuzzyMatches| ==>
           r[j].fuzzyMatches[i].Validated() == examples[j].fuzzyMatches[i].Validated()
  {
  }

  /** Digit keys 1 to 9 flip the checkbox with that number, if it exists. */
  function KeyDigit(s: FuzzyValidator, digit: int): (r: FuzzyValidator)
    ensures r.examples == s.examples && r.index == s.index && |r.checks| == |s.checks|
    ensures forall i :: 0 <= i < |s.checks| ==> (r.checks[i] != s.checks[i] <==> 1 <= digit <= 9 && i == digit - 1)
  {
    if 1 <= digit <= 9 && digit - 1 < |s.checks| then
      s.(checks := s.checks[digit - 1 := !s.checks[digit - 1]])
    else s
  }

  /** Pressing the same digit twice restores the checkboxes. */
  lemma KeyDigitTwice(s: FuzzyValidator, digit: int)
    ensures KeyDigit(KeyDigit(s, digit), digit) == s
  {
    var r := KeyDigit(KeyDigit(s, digit), digit);
    assert r.checks == s.checks;
  }

  /** `prev_example`: commit the checkboxes, then step back when possible and redisplay. */
  function PrevExample(s: FuzzyValidator): (r: FuzzyValidator)
    requires Valid(s)
    ensures Valid(r)
    ensures r.examples == SaveCurrentSelections(s)
    ensures r.index == Navigation.Back(s.index)
    ensures r.index == s.index ==> r.checks == s.checks
    ensures r.index != s.index ==> r.checks == Display(r.examples, r.index)
  {
    var saved := SaveCurrentSelections(s);
    if s.index > 0 then FuzzyValidator(saved, s.index - 1, Display(saved, s.index - 1))
    else s.(examples := saved)
  }

  /** `next_example`: commit the checkboxes, then step forward when possible and redisplay. */
  function NextExample(s: FuzzyValidator): (r: FuzzyValidator)
    requires Valid(s)
    ensures Valid(r)
    ensures r.examples == SaveCurrentSelections(s)
    ensures r.index == Navigation.Forward(s.index, |s.examples|)
    ensures r.index == s.index ==> r.checks == s.checks
    ensures r.index != s.index ==> r.checks == Display(r.examples, r.index)
  {
    var saved := SaveCurrentSelections(s);
    if s.index < |s.examples| - 1 then FuzzyValidator(saved, s.index + 1, Display(saved, s.index + 1))
    else s.(examples := saved)
  }

  /** Moving away and back shows the checkboxes as they were left. */
  lemma NextThenPrevShowsSaved(s: FuzzyValidator)
    requires Valid(s) && s.index < |s.examples| - 1
    ensures PrevExample(NextExample(s)).index == s.index
    ensures PrevExample(NextExample(s)).checks == s.checks
  {
    var n := NextExample(s);
    var p := PrevExample(n);
    SaveThenDisplay(s);
    assert SaveCurrentSelections(n)[s.index] == n.examples[s.index];
  }

  /** `delete_example`: with examples and a confirmed dialog, remove the
      current example (its unsaved checkboxes are dropped with it),
      re-clamp the index and redisplay. */
  function DeleteExample(s: FuzzyValidator, confirmed: bool): (r: FuzzyValidator)
    requires Valid(s)
    ensures Valid(r)
    ensures s.examples == [] || !confirmed ==> r == s
    ensures s.examples != [] && confirmed ==>
      && |r.examples| == |s.examples| - 1
      && (forall j :: 0 <= j < s.index ==> r.examples[j] == s.examples[j])
      && (forall j :: s.index <= j < |r.examples| ==> r.examples[j] == s.examples[j + 1])
      && r.index == Navigation.IndexAfterDelete(s.index, |r.examples|)
      && r.checks == Display(r.examples, r.index)
  {
    if s.examples == [] || !confirmed then s
    else
      var (examples, index) := Navigation.DeleteAt(s.examples, s.index);
      FuzzyValidator(examples, index, Display(examples, index))
  }

  /** `keyPressEvent`: Delete, F, B and the digits; other keys do nothing here. */
  datatype Key = DeleteKey(confirmed: bool) | ForwardKey | BackKey | DigitKey(digit: int) | OtherKey

  function Press(s: FuzzyValidator, k: Key): (r: FuzzyValidator)
    requires Valid(s)
    ensures Valid(r)
  {
    match k
    case DeleteKey(confirmed) => DeleteExample(s, confirmed)
    case ForwardKey => NextExample(s)
    case BackKey => PrevExample(s)
    case DigitKey(d) => KeyDigit(s, d)
    case OtherKey => s
  }

  /** The state after a sequence of key presses. */
  function Run(s: FuzzyValidator, keys: seq<Key>): (r: FuzzyValidator)
    requires Valid(s)
    ensures Valid(r)
    decreases |keys|
  {
    if keys == [] then s else Run(Press(s, keys[0]), keys[1..])
  }

  /** `b` holds the same examples as `a` with the same fuzzy matches each;
      only validation flags may differ. */
  predicate SameShape(a: seq<Example>, b: seq<Example>) {
    && |b| == |a|
    && forall j :: 0 <= j < |a| ==>
         && b[j].(fuzzyMatches := []) == a[j].(fuzzyMatches := [])
         && SameMatches(a[j].fuzzyMatches, b[j].fuzzyMatches)
  }

  /** `ns` holds the matches of `ms`, position by position, up to their
      validation flags. */
  predicate SameMatches(ms: seq<FuzzyMatch>, ns: seq<FuzzyMatch>) {
    && |ns| == |ms|
    && forall i :: 0 <= i < |ms| ==> ns[i].(validated := None) == ms[i].(validated := None)
  }

  /** Any key but Delete keeps the shape of the examples. */
  lemma PressKeepsShape(s: FuzzyValidator, k: Key)
    requires Valid(s) && !k.DeleteKey?
    ensures SameShape(s.examples, Press(s, k).examples)
  {
  }

  /** Key presses other than Delete never add or drop examples or fuzzy matches. */
  lemma {:induction false} RunKeepsShape(s: FuzzyValidator, keys: seq<Key>)
    requires Valid(s)
    requires forall k :: k in keys ==> !k.DeleteKey?
    ensures SameShape(s.examples, Run(s, keys).examples)
    decreases |keys|
  {
    if keys != [] {
      var next := Press(s, keys[0]);
      PressKeepsShape(s, keys[0]);
      RunKeepsShape(next, keys[1..]);
    }
  }
}

=== FILE: generator.dfy ===
/** The corpus-building loop of the fuzzy-match generator: split the
    generator's answer into lines, parse `INDEX ||| LENGTH ||| DOMAIN |||
    SENTENCE` rows, fetch candidates for each sentence and filter them. */
module Generator {
  import opened Wrappers
  import opened Seqs
  import opened Text
  import opened Corpus
  import opened FuzzyFilter

  const FieldSeparator: string := "|||"
  const LineSeparator: string := "\n"

  /** The four fields of a sentence row, kept exactly as split (no stripping). */
  datatype Row = Row(index: string, lengthCategory: string, domain: string, sentence: string)

  /** Unpacking a row into four names fails when it has another field count. */
  datatype RowError = UnpackError(line: string, fieldCount: nat)

  datatype RowParse = Skipped | Parsed(row: Row) | Malformed(error: RowError)

  /** Lines that carry the field separator; all others are skipped. */
  predicate IsSentenceRow(line: string) {
    Contains(line, FieldSeparator)
  }

  /** One line of the answer: skipped without a separator, otherwise it must
      split into exactly four fields. */
  function ParseRow(line: string): (r: RowParse)
    ensures r.Skipped? <==> !IsSentenceRow(line)
    ensures r.Parsed? ==>
      Join([r.row.index, r.row.lengthCategory, r.row.domain, r.row.sentence], FieldSeparator) == line
    ensures r.Parsed? ==> !Contains(r.row.sentence, FieldSeparator)
    ensures r.Malformed? ==> r.error.line == line && r.error.fieldCount >= 2 && r.error.fieldCount != 4
    ensures IsSentenceRow(line) ==> (r.Parsed? <==> |Split(line, FieldSeparator)| == 4)
    ensures r.Parsed? ==> [r.row.index, r.row.lengthCategory, r.row.domain, r.row.sentence] == Split(line, FieldSeparator)
    ensures r.Malformed? ==> r.error.fieldCount == |Split(line, FieldSeparator)|
  {
    if !IsSentenceRow(line) then Skipped
    else
      var fields := Split(line, FieldSeparator);
      SplitPiecesFree(line, FieldSeparator);
      if |fields| == 4 then
        assert fields == [fields[0], fields[1], fields[2], fields[3]];
        Parsed(Row(fields[0], fields[1], fields[2], fields[3]))
      else Malformed(UnpackError(line, |fields|))
  }

  /** No character of `s` is a bar. */
  predicate BarFree(s: string) {
    forall k :: 0 <= k < |s| ==> s[k] != '|'
  }

  /** A row built from four bar-free fields parses back into exactly those
      fields: nothing is stripped, so the sentence keeps its surrounding spaces. */
  lemma FourFieldRow(index: string, lengthCategory: string, domain: string, sentence: string)
    requires BarFree(index) && BarFree(lengthCategory) && BarFree(domain) && BarFree(sentence)
    ensures ParseRow(index + FieldSeparator + lengthCategory + FieldSeparator + domain + FieldSeparator + sentence)
         == Parsed(Row(index, lengthCategory, domain, sentence))
  {
    var sep := FieldSeparator;
    var fields := [index, lengthCategory, domain, sentence];
    var line := index + sep + lengthCategory + sep + domain + sep + sentence;
    JoinCons(domain, [sentence], sep);
    JoinCons(lengthCategory, [domain, sentence], sep);
    JoinCons(index, [lengthCategory, domain, sentence], sep);
    assert line == index + sep + (lengthCategory + sep + (domain + sep + sentence));
    SplitJoin(fields, sep);
    assert Split(line, sep) == fields;
    assert |Split(line, sep)| != 1;
  }

  /** A row of bar-free fields in any number other than four (and at least
      two) is an unpacking error that reports its field count. */
  lemma WrongFieldCountRow(fields: seq<string>)
    requires |fields| >= 2 && |fields| != 4
    requires forall k :: 0 <= k < |fields| ==> BarFree(fields[k])
    ensures ParseRow(Join(fields, FieldSeparator)) == Malformed(UnpackError(Join(fields, FieldSeparator), |fields|))
  {
    SplitJoin(fields, FieldSeparator);
  }

  /** The sentence (fourth field) of a sentence row that parses. */
  function SentenceOf(line: string): string {
    match ParseRow(line)
    case Parsed(row) => row.sentence
    case _ => ""
  }

  /** The example produced for one sentence: the filtered candidates with the
      sentence attached as `main_sentence`. */
  function ExampleFor(sentence: string, generate: string -> Example, threshold: real): (r: Example)
    ensures r.mainSentence == Some(sentence)
    ensures r.fuzzyMatches == KeptMatches(sentence, generate(sentence).fuzzyMatches, threshold)
    ensures r.domain == generate(sentence).domain && r.terms == generate(sentence).terms
  {
    Filtered(sentence, generate(sentence), threshold).(mainSentence := Some(sentence))
  }

  /** One pass of the loop body (lines 153-159): skip a line without a
      separator, fail on a row that does not unpack into four fields,
      otherwise fetch, filter and append the example for its sentence. */
  method ProcessLine(line: string, generate: string -> Example, threshold: real, examples: seq<Example>)
    returns (r: Result<seq<Example>, RowError>)
    ensures r.Failure? <==> ParseRow(line).Malformed?
    ensures r.Failure? ==> ParseRow(line) == Malformed(r.error)
    ensures r.Success? && !IsSentenceRow(line) ==> r.value == examples
    ensures r.Success? && IsSentenceRow(line) ==>
      r.value == examples + [RowExample(generate, threshold)(line)]
  {
    var parsed := ParseRow(line);
    if parsed.Malformed? {
      return Failure(parsed.error);
    }
    if parsed.Skipped? {
      return Success(examples);
    }
    var sentence := parsed.row.sentence;
    var fetched := generate(sentence);
    var filtered := UpdateSimilarityEstimates(sentence, fetched, threshold);
    r := Success(examples + [filtered.(mainSentence := Some(sentence))]);
  }

  /** The example produced for one sentence row. */
  function ExampleForRow(row: string, generate: string -> Example, threshold: real): Example {
    ExampleFor(SentenceOf(row), generate, threshold)
  }

  /** `ExampleForRow` as a function value, for mapping over rows. */
  function RowExample(generate: string -> Example, threshold: real): string -> Example {
    (row: string) => ExampleForRow(row, generate, threshold)
  }

  /** The examples for a list of sentence rows, one per row, in order. */
  function ExamplesFor(rows: seq<string>, generate: string -> Example, threshold: real): seq<Example> {
    Map(RowExample(generate, threshold), rows)
  }

  /** Each example carries its row's sentence, unstripped, as `main_sentence`,
      the generated candidates that reach the threshold as its fuzzy
      matches, and the generated domain and terms unchanged. */
  lemma ExamplesForContents(rows: seq<string>, generate: string -> Example, threshold: real)
    ensures |ExamplesFor(rows, generate, threshold)| == |rows|
    ensures forall k :: 0 <= k < |rows| ==>
      var sentence := SentenceOf(rows[k]);
      var e := ExamplesFor(rows, generate, threshold)[k];
      && e.mainSentence == Some(sentence)
      && e.fuzzyMatches == KeptMatches(sentence, generate(sentence).fuzzyMatches, threshold)
      && e.domain == generate(sentence).domain
      && e.terms == generate(sentence).terms
  {
  }

  /** The unpacking error of the earliest malformed line, if there is one. */
  function FirstUnpackError(lines: seq<string>): Option<RowError>
    decreases |lines|
  {
    if lines == [] then None
    else match FirstUnpackError(lines[..|lines| - 1])
      case Some(e) => Some(e)
      case None =>
        match ParseRow(lines[|lines| - 1])
        case Malformed(e) => Some(e)
        case _ => None
  }

  /** `FirstUnpackError` finds nothing exactly when no line is malformed, and
      otherwise reports the line that is malformed after only well-formed ones. */
  lemma {:induction false} FirstUnpackErrorIff(lines: seq<string>)
    ensures FirstUnpackError(lines).None? <==> forall j :: 0 <= j < |lines| ==> !ParseRow(lines[j]).Malformed?
    ensures FirstUnpackError(lines).Some? ==> exists k :: (0 <= k < |lines| &&
      ParseRow(lines[k]) == Malformed(FirstUnpackError(lines).value) &&
      forall j :: 0 <= j < k ==> !ParseRow(lines[j]).Malformed?)
    decreases |lines|
  {
    if lines != [] {
      var init := lines[..|lines| - 1];
      FirstUnpackErrorIff(init);
      assert forall j :: 0 <= j < |init| ==> init[j] == lines[j];
    }
  }

  /** Once a prefix holds a malformed line, the lines after it do not matter. */
  lemma {:induction false} FirstUnpackErrorOfPrefix(lines: seq<string>, i: nat)
    requires i <= |lines| && FirstUnpackError(lines[..i]).Some?
    ensures FirstUnpackError(lines) == FirstUnpackError(lines[..i])
    decreases |lines| - i
  {
    if i < |lines| {
      assert lines[..i + 1][..i] == lines[..i];
      FirstUnpackErrorOfPrefix(lines, i + 1);
    } else {
      assert lines[..i] == lines;
    }
  }

  /** The answer's lines, as `answer.split("\n")`. */
  function Lines(answer: string): (r: seq<string>)
    ensures |r| >= 1 && Join(r, LineSeparator) == answer
    ensures forall k :: 0 <= k < |r| ==> !Contains(r[k], LineSeparator)
  {
    SplitPiecesFree(answer, LineSeparator);
    Split(answer, LineSeparator)
  }

  /** The `main` loop over the answer's lines: one example per sentence row,
      in order, or the unpacking error of the first malformed row. */
  method ProcessLines(lines: seq<string>, generate: string -> Example, threshold: real)
    returns (r: Result<seq<Example>, RowError>)
    ensures r.Failure? <==> FirstUnpackError(lines).Some?
    ensures r.Failure? ==> FirstUnpackError(lines) == Some(r.error)
    ensures r.Success? ==> r.value == ExamplesFor(Filter(IsSentenceRow, lines), generate, threshold)
  {
    MapFilterIsMapOfFilter(IsSentenceRow, RowExample(generate, threshold), lines);
    var examples: seq<Example> := [];
    var i := 0;
    while i < |lines|
      invariant 0 <= i <= |lines|
      invariant FirstUnpackError(lines[..i]).None?
      invariant examples == MapFilter(IsSentenceRow, RowExample(generate, threshold), lines[..i])
    {
      var step := Advance(lines, i, generate, threshold, examples);
      if step.Failure? {
        FirstUnpackErrorOfPrefix(lines, i + 1);
        return step;
      }
      examples := step.value;
      i := i + 1;
    }
    assert lines[..i] == lines;
    r := Success(examples);
  }

  /** Line `i` of the loop, with the loop's bookkeeping: the examples cover
      one more line, or line `i` is the first malformed one. */
  method Advance(lines: seq<string>, i: nat, generate: string -> Example, threshold: real, examples: seq<Example>)
    returns (r: Result<seq<Example>, RowError>)
    requires i < |lines| && FirstUnpackError(lines[..i]).None?
    requires examples == MapFilter(IsSentenceRow, RowExample(generate, threshold), lines[..i])
    ensures r.Success? <==> FirstUnpackError(lines[..i + 1]).None?
    ensures r.Success? ==> r.value == MapFilter(IsSentenceRow, RowExample(generate, threshold), lines[..i + 1])
    ensures r.Failure? ==> FirstUnpackError(lines[..i + 1]) == Some(r.error)
  {
    var line := lines[i];
    assert lines[..i + 1][..i] == lines[..i];
    r := ProcessLine(line, generate, threshold, examples);
  }

  /** The whole pipeline on one model answer. `generate` stands for the
      language-model call that returns the candidates for a sentence. */
  method BuildCorpus(answer: string, generate: string -> Example, threshold: real)
    returns (r: Result<seq<Example>, RowError>)
    ensures r.Failure? <==> FirstUnpackError(Lines(answer)).Some?
    ensures r.Failure? ==> FirstUnpackError(Lines(answer)) == Some(r.error)
    ensures r.Success? ==> r.value == ExamplesFor(Filter(IsSentenceRow, Lines(answer)), generate, threshold)
  {
    r := ProcessLines(Lines(answer), generate, threshold);
  }
}

=== FILE: navigation.dfy ===
/** Index navigation and deletion shared by the validators: the Back and
    Forward steps bounded by the example count, and the re-clamping of the
    index after an example is deleted. */
module Navigation {
  import opened Seqs

  /** The validators' index invariant: in range, or 0 when there is nothing to show. */
  predicate InBounds(index: nat, count: nat) {
    if count == 0 then index == 0 else index < count
  }

  /** Back: one step towards the first example, if not already there. */
  function Back(index: nat): (r: nat)
    ensures forall count :: InBounds(index, count) ==> InBounds(r, count)
    ensures r != index <==> index > 0
    ensures r == index || r + 1 == index
  {
    if index > 0 then index - 1 else index
  }

  /** Forward: one step towards the last example, if not already there. */
  function Forward(index: nat, count: nat): (r: nat)
    ensures InBounds(index, count) ==> InBounds(r, count)
    ensures r != index <==> index + 1 < count
    ensures r == index || r == index + 1
  {
    if index < count - 1 then index + 1 else index
  }

  /** The index after deleting from a list now `count` long: unchanged when
      still in range, otherwise the last position, or 0 when empty. */
  function IndexAfterDelete(index: nat, count: nat): (r: nat)
    ensures InBounds(r, count)
    ensures index < count ==> r == index
    ensures index >= count && count > 0 ==> r == count - 1
  {
    if index >= count then (if count - 1 > 0 then count - 1 else 0) else index
  }

  /** Deleting the example at the current index: exactly that element goes,
      the others keep their order, and the index is re-clamped. */
  function DeleteAt<T>(xs: seq<T>, index: nat): (r: (seq<T>, nat))
    requires index < |xs|
    ensures |r.0| == |xs| - 1
    ensures forall j :: 0 <= j < index ==> r.0[j] == xs[j]
    ensures forall j :: index <= j < |r.0| ==> r.0[j] == xs[j + 1]
    ensures InBounds(r.1, |r.0|)
    ensures r.1 == index || (index == |r.0| && r.1 + 1 == index) || (|r.0| == 0 && r.1 == 0)
  {
    var rest := RemoveAt(xs, index);
    (rest, IndexAfterDelete(index, |rest|))
  }
}

=== FILE: seqs.dfy ===
/** Order-preserving sub-lists, filtering and single-element removal over sequences. */
module Seqs {

  /** `xs` is obtained from `ys` by deleting elements, without reordering. */
  predicate IsSubsequence<T(==)>(xs: seq<T>, ys: seq<T>)
    decreases |ys|
  {
    if ys == [] then xs == []
    else
      (xs != [] && xs[|xs| - 1] == ys[|ys| - 1] && IsSubsequence(xs[..|xs| - 1], ys[..|ys| - 1]))
      || IsSubsequence(xs, ys[..|ys| - 1])
  }

  /** Keeps the elements satisfying `p`, in their original order. */
  function Filter<T>(p: T -> bool, xs: seq<T>): (r: seq<T>)
    ensures |r| <= |xs|
    ensures forall k :: 0 <= k < |r| ==> p(r[k])
    decreases |xs|
  {
    if xs == [] then []
    else
      var init := Filter(p, xs[..|xs| - 1]);
      var last := xs[|xs| - 1];
      if p(last) then init + [last] else init
  }

  /** An element of `xs` is kept exactly when it satisfies `p`, and nothing
      else is kept. */
  lemma {:induction false} FilterMembers<T>(p: T -> bool, xs: seq<T>)
    ensures forall x :: x in xs ==> (p(x) <==> x in Filter(p, xs))
    ensures forall x :: x in Filter(p, xs) ==> x in xs
    decreases |xs|
  {
    if xs != [] {
      var init, last := xs[..|xs| - 1], xs[|xs| - 1];
      FilterMembers(p, init);
      assert xs == init + [last];
    }
  }

  /** Filtering keeps the original order. */
  lemma {:induction false} FilterIsSubsequence<T>(p: T -> bool, xs: seq<T>)
    ensures IsSubsequence(Filter(p, xs), xs)
    decreases |xs|
  {
    if xs != [] {
      var init, last := xs[..|xs| - 1], xs[|xs| - 1];
      FilterIsSubsequence(p, init);
      var r := Filter(p, init);
      if p(last) {
        assert (r + [last])[..|r|] == r;
      }
    }
  }

  /** Filtering appended elements one at a time, as the source's loops do. */
  lemma FilterAppend<T>(p: T -> bool, xs: seq<T>, x: T)
    ensures Filter(p, xs + [x]) == if p(x) then Filter(p, xs) + [x] else Filter(p, xs)
  {
    assert (xs + [x])[..|xs|] == xs;
  }

  /** A stronger predicate keeps a subsequence of what a weaker one keeps. */
  lemma {:induction false} FilterMonotonic<T>(strong: T -> bool, weak: T -> bool, xs: seq<T>)
    requires forall x :: x in xs && strong(x) ==> weak(x)
    ensures IsSubsequence(Filter(strong, xs), Filter(weak, xs))
    decreases |xs|
  {
    if xs != [] {
      var init := xs[..|xs| - 1];
      var last := xs[|xs| - 1];
      assert xs == init + [last];
      FilterMonotonic(strong, weak, init);
      var s, w := Filter(strong, init), Filter(weak, init);
      if strong(last) {
        assert (s + [last])[..|s|] == s;
        assert (w + [last])[..|w|] == w;
      } else if weak(last) {
        assert (w + [last])[..|w|] == w;
      }
    }
  }

  /** When every element passes, the filter is the identity. */
  lemma {:induction false} FilterAll<T>(p: T -> bool, xs: seq<T>)
    requires forall k :: 0 <= k < |xs| ==> p(xs[k])
    ensures Filter(p, xs) == xs
    decreases |xs|
  {
    if xs != [] {
      var init := xs[..|xs| - 1];
      assert xs == init + [xs[|xs| - 1]];
      FilterAll(p, init);
    }
  }

  /** `xs` with the element at position `i` removed (Python's `del xs[i]`). */
  function RemoveAt<T>(xs: seq<T>, i: nat): (r: seq<T>)
    requires i < |xs|
    ensures |r| == |xs| - 1
    ensures forall j :: 0 <= j < i ==> r[j] == xs[j]
    ensures forall j :: i <= j < |r| ==> r[j] == xs[j + 1]
  {
    xs[..i] + xs[i + 1..]
  }

  /** The positions of the elements satisfying `p`, in increasing order. */
  function IndicesWhere<T>(p: T -> bool, xs: seq<T>): (r: seq<nat>)
    ensures forall k :: 0 <= k < |r| ==> r[k] < |xs| && p(xs[r[k]])
    ensures forall j :: 0 <= j < |xs| && p(xs[j]) ==> j in r
    ensures forall k, l :: 0 <= k < l < |r| ==> r[k] < r[l]
    decreases |xs|
  {
    if xs == [] then []
    else
      var n := |xs| - 1;
      var init := IndicesWhere(p, xs[..n]);
      if p(xs[n]) then init + [n] else init
  }

  /** Positions depend only on which elements pass: two lists whose
      elements pass `p` and `q` at the same places have the same positions. */
  lemma {:induction false} IndicesWhereSamePattern<A, B>(p: A -> bool, xs: seq<A>, q: B -> bool, ys: seq<B>)
    requires |xs| == |ys|
    requires forall j :: 0 <= j < |xs| ==> p(xs[j]) == q(ys[j])
    ensures IndicesWhere(p, xs) == IndicesWhere(q, ys)
    decreases |xs|
  {
    if xs != [] {
      IndicesWhereSamePattern(p, xs[..|xs| - 1], q, ys[..|ys| - 1]);
    }
  }

  /** The filter keeps exactly the elements at the positions `IndicesWhere`
      lists, in that order, so repeated elements keep their multiplicity. */
  lemma {:induction false} FilterByIndices<T>(p: T -> bool, xs: seq<T>)
    ensures |Filter(p, xs)| == |IndicesWhere(p, xs)|
    ensures forall k :: 0 <= k < |Filter(p, xs)| ==> Filter(p, xs)[k] == xs[IndicesWhere(p, xs)[k]]
    decreases |xs|
  {
    if xs != [] {
      var n := |xs| - 1;
      var init := xs[..n];
      FilterByIndices(p, init);
      var f, ix := Filter(p, init), IndicesWhere(p, init);
      forall k | 0 <= k < |f|
        ensures f[k] == xs[ix[k]]
      {
        assert init[ix[k]] == xs[ix[k]];
      }
      if p(xs[n]) {
        assert Filter(p, xs) == f + [xs[n]];
        assert IndicesWhere(p, xs) == ix + [n];
      } else {
        assert Filter(p, xs) == f;
        assert IndicesWhere(p, xs) == ix;
      }
    }
  }

  /** `f` applied to every element, in order. */
  function Map<A, B>(f: A -> B, xs: seq<A>): (r: seq<B>)
    ensures |r| == |xs|
    ensures forall k :: 0 <= k < |xs| ==> r[k] == f(xs[k])
  {
    seq(|xs|, k requires 0 <= k < |xs| => f(xs[k]))
  }

  /** Mapping distributes over appending one element. */
  lemma MapAppend<A, B>(f: A -> B, xs: seq<A>, x: A)
    ensures Map(f, xs + [x]) == Map(f, xs) + [f(x)]
  {
    assert Map(f, xs + [x])[..|xs|] == Map(f, xs);
  }

  /** `f` applied to the elements satisfying `p`, built element by element. */
  function MapFilter<A, B>(p: A -> bool, f: A -> B, xs: seq<A>): seq<B>
    decreases |xs|
  {
    if xs == [] then []
    else
      var last := xs[|xs| - 1];
      MapFilter(p, f, xs[..|xs| - 1]) + (if p(last) then [f(last)] else [])
  }

  /** Building element by element agrees with filtering, then mapping. */
  lemma {:induction false} MapFilterIsMapOfFilter<A, B>(p: A -> bool, f: A -> B, xs: seq<A>)
    ensures MapFilter(p, f, xs) == Map(f, Filter(p, xs))
    decreases |xs|
  {
    if xs != [] {
      var init, last := xs[..|xs| - 1], xs[|xs| - 1];
      MapFilterIsMapOfFilter(p, f, init);
      assert xs == init + [last];
      FilterAppend(p, init, last);
      MapAppend(f, Filter(p, init), last);
    }
  }
}

=== FILE: termvalidator.dfy ===
/** The term validator (`TermValidator`) without its widgets: the current
    index, the set of deleted example indices, checkbox-driven selection of
    term translations, and the export that drops deleted examples and
    unselected translations. */
module TermValidation {
  import opened Wrappers
  import opened Seqs
  import opened Corpus
  import Navigation

  // ---------------------------------------------------------------------------
  // Export (`save_validated_terms`)
  // ---------------------------------------------------------------------------

  /** A translation's `selected` flag, false when the flag is absent, as a
      predicate value. */
  function IsSelected(): TermTranslation -> bool {
    (t: TermTranslation) => t.Selected()
  }

  /** The term's translation list reduced to the selected entries, in order. */
  function SelectedOnly(term: Term): (r: Term)
    ensures r.phrase == term.phrase
    ensures forall k :: 0 <= k < |r.translations| ==> r.translations[k].Selected()
    ensures forall t :: t in term.translations ==> (t.Selected() <==> t in r.translations)
    ensures forall t :: t in r.translations ==> t in term.translations
    ensures IsSubsequence(r.translations, term.translations)
    ensures |r.translations| == |IndicesWhere(IsSelected(), term.translations)|
    ensures forall k :: 0 <= k < |r.translations| ==>
      r.translations[k] == term.translations[IndicesWhere(IsSelected(), term.translations)[k]]
  {
    FilterMembers(IsSelected(), term.translations);
    FilterIsSubsequence(IsSelected(), term.translations);
    FilterByIndices(IsSelected(), term.translations);
    Term(term.phrase, Filter(IsSelected(), term.translations))
  }

  /** The new terms dictionary: each term keeps only its selected
      translations, and a term left with none is dropped. */
  function ExportTerms(terms: seq<Term>): (r: seq<Term>)
    ensures |r| <= |terms|
    ensures forall k :: 0 <= k < |r| ==> r[k].translations != []
    ensures forall k, q :: 0 <= k < |r| && 0 <= q < |r[k].translations| ==> r[k].translations[q].Selected()
    ensures forall x :: x in r ==> exists term :: term in terms && x == SelectedOnly(term)
    decreases |terms|
  {
    if terms == [] then []
    else
      var init := terms[..|terms| - 1];
      var last := terms[|terms| - 1];
      assert terms == init + [last];
      var kept := SelectedOnly(last);
      var rest := ExportTerms(init);
      if kept.translations != [] then rest + [kept] else rest
  }

  /** `SelectedOnly` as a function value, for mapping over a terms list. */
  function SelectedOnlyFn(): Term -> Term {
    (term: Term) => SelectedOnly(term)
  }

  /** A term that keeps at least one translation. */
  function NonEmpty(): Term -> bool {
    (term: Term) => term.translations != []
  }

  /** The export is exactly: reduce every term to its selected translations,
      in dictionary order, then drop the terms left empty. */
  lemma {:induction false} ExportTermsIsFilteredMap(terms: seq<Term>)
    ensures ExportTerms(terms) == Filter(NonEmpty(), Map(SelectedOnlyFn(), terms))
    ensures IsSubsequence(ExportTerms(terms), Map(SelectedOnlyFn(), terms))
    decreases |terms|
  {
    FilterIsSubsequence(NonEmpty(), Map(SelectedOnlyFn(), terms));
    if terms != [] {
      var init := terms[..|terms| - 1];
      var all := Map(SelectedOnlyFn(), terms);
      assert all[..|all| - 1] == Map(SelectedOnlyFn(), init);
      ExportTermsIsFilteredMap(init);
    }
  }

  /** A term survives the export, reduced to its selected translations,
      exactly when at least one of its translations is selected. */
  lemma ExportTermsMembers(terms: seq<Term>)
    ensures forall term :: term in terms ==>
      ((exists t :: t in term.translations && t.Selected()) <==> SelectedOnly(term) in ExportTerms(terms))
  {
    var all := Map(SelectedOnlyFn(), terms);
    ExportTermsIsFilteredMap(terms);
    FilterMembers(NonEmpty(), all);
    forall term | term in terms
      ensures (exists t :: t in term.translations && t.Selected()) <==> SelectedOnly(term) in ExportTerms(terms)
    {
      var i :| 0 <= i < |terms| && terms[i] == term;
      assert all[i] == SelectedOnly(term);
      SelectedOnlyNonEmpty(term);
    }
  }

  /** A term keeps some translation exactly when one of them is selected. */
  lemma SelectedOnlyNonEmpty(term: Term)
    ensures SelectedOnly(term).translations != [] <==> exists t :: t in term.translations && t.Selected()
  {
    var r := SelectedOnly(term);
    if r.translations != [] {
      assert r.translations[0] in term.translations;
    }
  }

  /** Every term is non-empty and every translation is selected: the shape
      the export produces. */
  predicate Exported(terms: seq<Term>) {
    && (forall k :: 0 <= k < |terms| ==> terms[k].translations != [])
    && (forall k, q :: 0 <= k < |terms| && 0 <= q < |terms[k].translations| ==> terms[k].translations[q].Selected())
  }

  /** The export leaves a dictionary already in exported shape as it is. */
  lemma {:induction false} ExportKeepsExported(terms: seq<Term>)
    requires Exported(terms)
    ensures ExportTerms(terms) == terms
    decreases |terms|
  {
    if terms != [] {
      var init := terms[..|terms| - 1];
      var last := terms[|terms| - 1];
      assert terms == init + [last];
      ExportKeepsExported(init);
      FilterAll(IsSelected(), last.translations);
      assert SelectedOnly(last) == last;
    }
  }

  /** Exporting an already exported terms dictionary changes nothing. */
  lemma ExportTermsIdempotent(terms: seq<Term>)
    ensures ExportTerms(ExportTerms(terms)) == ExportTerms(terms)
  {
    ExportKeepsExported(ExportTerms(terms));
  }

  /** One example of the export: `terms` filtered when present, untouched
      when absent; every other field is unchanged. */
  function ExportExample(example: Example): (r: Example)
    ensures r.(terms := example.terms) == example
    ensures example.terms.None? ==> r == example
    ensures example.terms.Some? ==> r.terms == Some(ExportTerms(example.terms.value))
  {
    match example.terms
    case None => example
    case Some(terms) => example.(terms := Some(ExportTerms(terms)))
  }

  /** The indices below `count` that are not deleted, in increasing order. */
  function UndeletedIndices(count: nat, deleted: set<nat>): (r: seq<nat>)
    ensures forall k :: 0 <= k < |r| ==> r[k] < count && r[k] !in deleted
    ensures forall j :: 0 <= j < count && j !in deleted ==> j in r
    ensures forall k, l :: 0 <= k < l < |r| ==> r[k] < r[l]
    decreases count
  {
    if count == 0 then []
    else
      var init := UndeletedIndices(count - 1, deleted);
      if count - 1 in deleted then init else init + [count - 1]
  }

  /** The examples whose original index is not deleted, in their order. */
  function KeepUndeleted(examples: seq<Example>, deleted: set<nat>): (r: seq<Example>)
    ensures |r| == |UndeletedIndices(|examples|, deleted)|
    ensures forall k :: 0 <= k < |r| ==> r[k] == examples[UndeletedIndices(|examples|, deleted)[k]]
    decreases |examples|
  {
    if examples == [] then []
    else
      var n := |examples| - 1;
      var init := KeepUndeleted(examples[..n], deleted);
      assert forall k :: 0 <= k < |init| ==> examples[..n][UndeletedIndices(n, deleted)[k]] == examples[UndeletedIndices(n, deleted)[k]];
      if n in deleted then init else init + [examples[n]]
  }

  /** The saved document: undeleted examples in order, each exported. */
  function SaveValidatedTerms(examples: seq<Example>, deleted: set<nat>): (r: seq<Example>)
    ensures |r| == |UndeletedIndices(|examples|, deleted)|
    ensures forall k :: 0 <= k < |r| ==> r[k] == ExportExample(examples[UndeletedIndices(|examples|, deleted)[k]])
  {
    var kept := KeepUndeleted(examples, deleted);
    seq(|kept|, k requires 0 <= k < |kept| => ExportExample(kept[k]))
  }

  /** Saving the saved document again, with nothing deleted, reproduces it. */
  lemma SaveIdempotent(examples: seq<Example>, deleted: set<nat>)
    ensures SaveValidatedTerms(SaveValidatedTerms(examples, deleted), {}) == SaveValidatedTerms(examples, deleted)
  {
    var once := SaveValidatedTerms(examples, deleted);
    var all := UndeletedIndices(|once|, {});
    assert |all| == |once| by {
      AllIndicesKept(|once|);
    }
    AllIndicesKept(|once|);
    forall k | 0 <= k < |once|
      ensures ExportExample(once[k]) == once[k]
    {
      match once[k].terms
      case None =>
      case Some(terms) =>
        var ex := examples[UndeletedIndices(|examples|, deleted)[k]];
        ExportTermsIdempotent(ex.terms.value);
    }
  }

  /** With nothing deleted every index survives, in order. */
  lemma {:induction false} AllIndicesKept(count: nat)
    ensures UndeletedIndices(count, {}) == seq(count, j => j)
    decreases count
  {
    if count > 0 {
      AllIndicesKept(count - 1);
      assert seq(count, j => j) == seq(count - 1, j => j) + [count - 1];
    }
  }

  // ---------------------------------------------------------------------------
  // Checkbox selection (`update_translation_selection`)
  // ---------------------------------------------------------------------------

  /** `(term, translation)` addresses a translation of example `index`. */
  predicate SelectionInRange(examples: seq<Example>, index: nat, term: nat, translation: nat) {
    && index < |examples|
    && examples[index].terms.Some?
    && term < |examples[index].terms.value|
    && translation < |examples[index].terms.value[term].translations|
  }

  /** `b` equals `a` except, at most, for the `selected` flag of one
      addressed translation. */
  predicate OnlySelectionDiffers(a: seq<Example>, b: seq<Example>, index: nat, term: nat, translation: nat)
    requires SelectionInRange(a, index, term, translation)
  {
    var ta := a[index].terms.value;
    && |b| == |a|
    && (forall e :: 0 <= e < |a| && e != index ==> b[e] == a[e])
    && b[index].(terms := None) == a[index].(terms := None)
    && b[index].terms.Some?
    && |b[index].terms.value| == |ta|
    && (forall j :: 0 <= j < |ta| && j != term ==> b[index].terms.value[j] == ta[j])
    && b[index].terms.value[term].phrase == ta[term].phrase
    && |b[index].terms.value[term].translations| == |ta[term].translations|
    && (forall q :: 0 <= q < |ta[term].translations| && q != translation ==>
          b[index].terms.value[term].translations[q] == ta[term].translations[q])
    && b[index].terms.value[term].translations[translation].(selected := None)
       == ta[term].translations[translation].(selected := None)
  }

  /** A checkbox change: sets `selected` on the addressed translation of the
      current example when every index is in range; otherwise nothing changes. */
  function UpdateTranslationSelection(examples: seq<Example>, index: nat, term: nat, translation: nat, checked: bool)
    : (r: seq<Example>)
    ensures SelectionInRange(examples, index, term, translation) ==>
      && OnlySelectionDiffers(examples, r, index, term, translation)
      && r[index].terms.value[term].translations[translation].selected == Some(checked)
    ensures !SelectionInRange(examples, index, term, translation) ==> r == examples
  {
    if SelectionInRange(examples, index, term, translation) then
      var example := examples[index];
      var terms := example.terms.value;
      var entry := terms[term];
      var updated := entry.translations[translation].(selected := Some(checked));
      var entry' := entry.(translations := entry.translations[translation := updated]);
      examples[index := example.(terms := Some(terms[term := entry']))]
    else examples
  }

  // ---------------------------------------------------------------------------
  // Index, deletion and navigation
  // ---------------------------------------------------------------------------

  datatype TermValidator = TermValidator(examples: seq<Example>, index: nat, deleted: set<nat>)

  /** What the window maintains between events: deleted indices are example
      indices, and the shown index is in range and not deleted. */
  predicate Valid(s: TermValidator) {
    && (forall d :: d in s.deleted ==> d < |s.examples|)
    && (if |s.examples| == 0 then s.index == 0 && s.deleted == {} else s.index < |s.examples| && s.index !in s.deleted)
  }

  /** After a delete, either the window closes or it stays open on a state. */
  datatype DeleteOutcome = Closed(deleted: set<nat>) | Open(state: TermValidator)

  /** The indices `0 .. count-1`. */
  function Indices(count: nat): (r: set<nat>)
    ensures forall j: nat :: j in r <==> j < count
    ensures |r| == count
  {
    if count == 0 then {} else Indices(count - 1) + {count - 1}
  }

  /** A set of example indices reaches the example count exactly when it
      holds every index. */
  lemma DeletedCountReachesAll(deleted: set<nat>, count: nat)
    requires forall d :: d in deleted ==> d < count
    ensures |deleted| >= count <==> forall j :: 0 <= j < count ==> j in deleted
  {
    assert deleted <= Indices(count);
    var missing := Indices(count) - deleted;
    assert Indices(count) == deleted + missing;
    assert |Indices(count)| == |deleted| + |missing|;
    if |deleted| >= count {
      assert |missing| == 0;
      assert missing == {};
      forall j | 0 <= j < count
        ensures j in deleted
      {
        assert j in Indices(count);
      }
    } else {
      assert |missing| > 0;
      var j :| j in missing;
      assert j < count && j !in deleted;
    }
  }

  /** The position `d` steps of `(i + 1) % count` after `start`, for an
      in-range `start` and at most one full turn: `(start + d) % count`
      without the division. */
  function CyclicAt(start: nat, d: nat, count: nat): (r: nat)
    requires start < count && d <= count
    ensures r < count
  {
    if start + d < count then start + d else start + d - count
  }

  /** One turn of the skip loop, `(i + 1) % count` for an in-range `i`. */
  lemma SuccessorIsMod(i: nat, count: nat)
    requires i < count
    ensures (i + 1) % count == if i + 1 < count then i + 1 else 0
  {
    if i + 1 == count {
      assert (i + 1) % count == count % count == 0;
    }
  }

  /** Each further offset is one more turn of the skip loop. */
  lemma CyclicStep(start: nat, d: nat, count: nat)
    requires start < count && d < count
    ensures CyclicAt(start, d + 1, count) == (CyclicAt(start, d, count) + 1) % count
  {
    SuccessorIsMod(CyclicAt(start, d, count), count);
  }

  /** Every position is reached from `start` by some offset below `count`. */
  lemma CyclicCovers(start: nat, j: nat, count: nat)
    requires start < count && j < count
    ensures var d := if j >= start then j - start else j + count - start;
      d < count && CyclicAt(start, d, count) == j
  {
    if j < start {
      assert start + (j + count - start) == j + count;
    }
  }

  /** The skip loop of `update_display`: the offset of the first index at or
      cyclically after `start` that is not deleted, searched from offset `k`. */
  function SkipOffset(deleted: set<nat>, count: nat, start: nat, k: nat): (d: nat)
    requires start < count && k < count
    requires exists j :: 0 <= j < count && j !in deleted
    requires forall e :: 0 <= e < k ==> CyclicAt(start, e, count) in deleted
    ensures k <= d < count
    ensures CyclicAt(start, d, count) !in deleted
    ensures forall e :: 0 <= e < d ==> CyclicAt(start, e, count) in deleted
    decreases count - k
  {
    if CyclicAt(start, k, count) !in deleted then k
    else
      assert k + 1 < count by {
        if k + 1 == count {
          var j :| 0 <= j < count && j !in deleted;
          CyclicCovers(start, j, count);
        }
      }
      SkipOffset(deleted, count, start, k + 1)
  }

  /** Steps forward cyclically, wrapping from the last index to the first,
      while the index is deleted. */
  function SkipDeleted(deleted: set<nat>, count: nat, start: nat): (r: nat)
    requires start < count
    requires exists j :: 0 <= j < count && j !in deleted
    ensures r < count && r !in deleted
    ensures start !in deleted ==> r == start
  {
    CyclicAt(start, SkipOffset(deleted, count, start, 0), count)
  }

  /** `delete_current_example`: mark the current index deleted; close once
      every example is deleted, otherwise move to the next undeleted one. */
  function DeleteCurrent(s: TermValidator): (r: DeleteOutcome)
    requires Valid(s)
    ensures r.Closed? <==> forall j :: 0 <= j < |s.examples| ==> j in s.deleted + {s.index}
    ensures r.Closed? ==> r.deleted == s.deleted + {s.index}
    ensures r.Open? ==> Valid(r.state) && r.state.examples == s.examples && r.state.deleted == s.deleted + {s.index}
    ensures r.Open? ==> r.state.index == SkipDeleted(s.deleted + {s.index}, |s.examples|, s.index)
  {
    var deleted := s.deleted + {s.index};
    var count := |s.examples|;
    if count == 0 then Closed(deleted)
    else
      DeletedCountReachesAll(deleted, count);
      if |deleted| >= count then Closed(deleted)
      else Open(TermValidator(s.examples, SkipDeleted(deleted, count, if s.index < count - 1 then s.index else count - 1), deleted))
  }

  /** `prev_example`: step back when possible, then skip deleted examples. */
  function PrevExample(s: TermValidator): (r: TermValidator)
    requires Valid(s)
    ensures Valid(r) && r.examples == s.examples && r.deleted == s.deleted
    ensures s.index == 0 ==> r == s
    ensures s.index > 0 ==> r.index == SkipDeleted(s.deleted, |s.examples|, s.index - 1)
  {
    if s.index > 0 then s.(index := SkipDeleted(s.deleted, |s.examples|, s.index - 1)) else s
  }

  /** `next_example`: step forward when possible, then skip deleted examples. */
  function NextExample(s: TermValidator): (r: TermValidator)
    requires Valid(s)
    ensures Valid(r) && r.examples == s.examples && r.deleted == s.deleted
    ensures s.index + 1 >= |s.examples| ==> r == s
    ensures s.index + 1 < |s.examples| ==> r.index == SkipDeleted(s.deleted, |s.examples|, s.index + 1)
  {
    if s.index < |s.examples| - 1 then s.(index := SkipDeleted(s.deleted, |s.examples|, s.index + 1)) else s
  }

  /** With nothing deleted, Back and Forward are the plain bounded steps. */
  lemma NavigationWithoutDeletions(s: TermValidator)
    requires Valid(s) && s.deleted == {}
    ensures PrevExample(s).index == Navigation.Back(s.index)
    ensures NextExample(s).index == Navigation.Forward(s.index, |s.examples|)
  {
  }

  /** Back onto a deleted example: the skip runs forward and lands on the
      example just left, so Back cannot pass a deleted example. */
  lemma BackOntoDeletedStays(s: TermValidator)
    requires Valid(s) && s.index > 0 && s.index - 1 in s.deleted
    ensures PrevExample(s).index == s.index
  {
    var count := |s.examples|;
    var start := s.index - 1;
    var d := SkipOffset(s.deleted, count, start, 0);
    assert CyclicAt(start, 0, count) == start;
    assert CyclicAt(start, 1, count) == s.index;
    assert d != 0;
    assert d < 2;
    assert PrevExample(s).index == CyclicAt(start, d, count);
  }

  /** Forward when every later example is deleted: the skip wraps to the
      start, so Forward lands on an earlier (or the same) example. */
  lemma ForwardPastDeletedTailWraps(s: TermValidator)
    requires Valid(s) && s.index + 1 < |s.examples|
    requires forall j :: s.index < j < |s.examples| ==> j in s.deleted
    ensures NextExample(s).index <= s.index
  {
    var count := |s.examples|;
    var start := s.index + 1;
    var d := SkipOffset(s.deleted, count, start, 0);
    var r := CyclicAt(start, d, count);
    assert r !in s.deleted;
  }
}

=== FILE: text.dfy ===
/** Python's `sep in s` and `s.split(sep)` on strings, with `Join` as the inverse of `Split`. */
module Text {
  import opened Wrappers

  /** `sep` occurs in `s` starting at position `i`. */
  predicate OccursAt(s: string, sep: string, i: nat) {
    i + |sep| <= |s| && s[i..i + |sep|] == sep
  }


  /** The first position at or after `from` where `sep` occurs, if any. */
  function FindFrom(s: string, sep: string, from: nat): (r: Option<nat>)
    requires from <= |s|
    ensures r.Some? ==> from <= r.value && OccursAt(s, sep, r.value)
    ensures r.Some? ==> forall j :: from <= j < r.value ==> !OccursAt(s, sep, j)
    ensures r.None? ==> forall j :: from <= j ==> !OccursAt(s, sep, j)
    decreases |s| - from
  {
    if OccursAt(s, sep, from) then Some(from)
    else if from == |s| then None
    else FindFrom(s, sep, from + 1)
  }

  /** Python's `sep in s`: a left-to-right search finds an occurrence. */
  predicate Contains(s: string, sep: string) {
    FindFrom(s, sep, 0).Some?
  }

  /** `Contains` holds exactly when `sep` occurs somewhere in `s`. */
  lemma ContainsIffOccurs(s: string, sep: string)
    ensures Contains(s, sep) <==> exists i: nat :: OccursAt(s, sep, i)
  {
  }

  /** Glues `parts` back together with `sep` between consecutive parts. */
  function Join(parts: seq<string>, sep: string): string
    decreases |parts|
  {
    if |parts| == 0 then ""
    else if |parts| == 1 then parts[0]
    else parts[0] + sep + Join(parts[1..], sep)
  }

  /** No occurrence of `sep` in `s` lies wholly before position `i`. */
  lemma PrefixFree(s: string, sep: string, i: nat)
    requires |sep| > 0 && i <= |s|
    requires forall j :: 0 <= j < i ==> !OccursAt(s, sep, j)
    ensures !Contains(s[..i], sep)
  {
    var p := s[..i];
    forall j: nat
      ensures !OccursAt(p, sep, j)
    {
      if j + |sep| <= |p| {
        assert p[j..j + |sep|] == s[j..j + |sep|];
        assert OccursAt(p, sep, j) ==> OccursAt(s, sep, j);
      }
    }
    ContainsIffOccurs(p, sep);
  }

  /** Joining a part in front of a non-empty list adds it and one separator. */
  lemma JoinCons(part: string, rest: seq<string>, sep: string)
    requires |rest| >= 1
    ensures Join([part] + rest, sep) == part + sep + Join(rest, sep)
  {
    assert ([part] + rest)[1..] == rest;
  }

  /** An occurrence of `sep` cuts `s` into the text before, `sep`, and the text after. */
  lemma CutAround(s: string, sep: string, i: nat)
    requires OccursAt(s, sep, i)
    ensures s == s[..i] + sep + s[i + |sep|..]
  {
  }

  /** Python's `s.split(sep)` for a non-empty separator: the pieces between
      the non-overlapping occurrences of `sep`, scanned left to right. */
  function Split(s: string, sep: string): (r: seq<string>)
    requires |sep| > 0
    ensures |r| >= 1
    ensures Join(r, sep) == s
    ensures |r| == 1 <==> !Contains(s, sep)
    decreases |s|
  {
    match FindFrom(s, sep, 0)
    case None =>
      [s]
    case Some(i) =>
      var rest := Split(s[i + |sep|..], sep);
      JoinCons(s[..i], rest, sep);
      CutAround(s, sep, i);
      [s[..i]] + rest
  }

  /** `Split` cuts at the leftmost occurrence: the first piece runs up to the
      first place `sep` occurs in `s`, and the other pieces split what follows. */
  lemma SplitCutsLeftmost(s: string, sep: string)
    requires |sep| > 0
    ensures var r := Split(s, sep);
      |r| > 1 ==>
        && OccursAt(s, sep, |r[0]|)
        && (forall j :: 0 <= j < |r[0]| ==> !OccursAt(s, sep, j))
        && r[0] == s[..|r[0]|]
        && r[1..] == Split(s[|r[0]| + |sep|..], sep)
  {
    var r := Split(s, sep);
    if |r| > 1 {
      var i := FindFrom(s, sep, 0).value;
      assert r == [s[..i]] + Split(s[i + |sep|..], sep);
      assert r[1..] == Split(s[i + |sep|..], sep);
    }
  }

  /** No piece produced by `Split` contains the separator. */
  lemma {:induction false} SplitPiecesFree(s: string, sep: string)
    requires |sep| > 0
    ensures forall k :: 0 <= k < |Split(s, sep)| ==> !Contains(Split(s, sep)[k], sep)
    decreases |s|
  {
    match FindFrom(s, sep, 0)
    case None =>
      assert s[..|s|] == s;
      PrefixFree(s, sep, |s|);
    case Some(i) =>
      SplitPiecesFree(s[i + |sep|..], sep);
      PrefixFree(s, sep, i);
      var r := Split(s, sep);
      assert forall k :: 1 <= k < |r| ==> r[k] == Split(s[i + |sep|..], sep)[k - 1];
  }

  /** A piece free of the separator's first character splits off intact. */
  lemma {:induction false} SplitAfterPiece(a: string, sep: string, rest: string)
    requires |sep| > 0 && forall k :: 0 <= k < |a| ==> a[k] != sep[0]
    ensures Split(a + sep + rest, sep) == [a] + Split(rest, sep)
  {
    var s := a + sep + rest;
    forall j | 0 <= j < |a|
      ensures !OccursAt(s, sep, j)
    {
      if j + |sep| <= |s| {
        assert s[j..j + |sep|][0] == a[j];
      }
    }
    assert s[|a|..|a| + |sep|] == sep;
    assert OccursAt(s, sep, |a|);
    assert FindFrom(s, sep, 0) == Some(|a|);
    assert s[|a| + |sep|..] == rest;
  }

  /** A string free of the separator's first character is a single piece. */
  lemma SplitWithoutSeparator(a: string, sep: string)
    requires |sep| > 0 && forall k :: 0 <= k < |a| ==> a[k] != sep[0]
    ensures Split(a, sep) == [a]
  {
    forall j | 0 <= j <= |a|
      ensures !OccursAt(a, sep, j)
    {
      if j + |sep| <= |a| {
        assert a[j..j + |sep|][0] == a[j];
      }
    }
    assert FindFrom(a, sep, 0).None?;
  }

  /** `Split` undoes `Join` when no part holds the separator's first character. */
  lemma {:induction false} SplitJoin(parts: seq<string>, sep: string)
    requires |sep| > 0 && |parts| >= 1
    requires forall i, k :: 0 <= i < |parts| && 0 <= k < |parts[i]| ==> parts[i][k] != sep[0]
    ensures Split(Join(parts, sep), sep) == parts
    decreases |parts|
  {
    if |parts| == 1 {
      SplitWithoutSeparator(parts[0], sep);
    } else {
      SplitJoin(parts[1..], sep);
      SplitAfterPiece(parts[0], sep, Join(parts[1..], sep));
    }
  }
}

=== FILE: translationvalidator.dfy ===
/** The translation validator (`TranslationValidator`) without its widgets:
    the "fuzzy number, then translation number" input mode that toggles a
    translation's `validated` flag, navigation, and deletion. */
module TranslationValidation {
  import opened Wrappers
  import opened Seqs
  import opened Corpus
  import Navigation

  /** `fuzzy_input_mode`, `trans_input_mode`, `current_fuzzy_num`, `current_trans_num`. */
  datatype InputMode = InputMode(fuzzyInput: bool, transInput: bool, fuzzyNum: int, transNum: int)

  /** The mode `reset_input_mode` restores. */
  const Idle: InputMode := InputMode(false, false, 0, 0)

  datatype TranslationValidator = TranslationValidator(examples: seq<Example>, index: nat, mode: InputMode)

  /** Indexing the example list while it is empty raises. */
  datatype ValidatorError = ExampleIndexError(index: nat)

  /** Fuzzy matches with a non-empty `translations` list are the ones shown and numbered. */
  function HasTranslations(): FuzzyMatch -> bool {
    (m: FuzzyMatch) => m.translations != []
  }

  /** Positions, in the full list, of the shown fuzzy matches; the user's
      fuzzy number `f` means position `ShownPositions(ms)[f - 1]`. */
  function ShownPositions(ms: seq<FuzzyMatch>): seq<nat> {
    IndicesWhere(HasTranslations(), ms)
  }

  /** `fuzzy_num` and `trans_num` (1-based) address a translation of the current example. */
  predicate TargetInRange(examples: seq<Example>, index: nat, fuzzyNum: int, transNum: int) {
    && index < |examples|
    && 1 <= fuzzyNum <= |ShownPositions(examples[index].fuzzyMatches)|
    && 1 <= transNum <= |examples[index].fuzzyMatches[ShownPositions(examples[index].fuzzyMatches)[fuzzyNum - 1]].translations|
  }

  /** `b` equals `a` except, at most, for the `validated` flag of translation
      `t` of fuzzy match `m` of example `e`. */
  predicate OnlyValidatedDiffers(a: seq<Example>, b: seq<Example>, e: nat, m: nat, t: nat)
    requires e < |a| && m < |a[e].fuzzyMatches| && t < |a[e].fuzzyMatches[m].translations|
  {
    var ma := a[e].fuzzyMatches;
    && |b| == |a|
    && (forall i :: 0 <= i < |a| && i != e ==> b[i] == a[i])
    && b[e].(fuzzyMatches := []) == a[e].(fuzzyMatches := [])
    && |b[e].fuzzyMatches| == |ma|
    && (forall j :: 0 <= j < |ma| && j != m ==> b[e].fuzzyMatches[j] == ma[j])
    && b[e].fuzzyMatches[m].(translations := []) == ma[m].(translations := [])
    && |b[e].fuzzyMatches[m].translations| == |ma[m].translations|
    && (forall q :: 0 <= q < |ma[m].translations| && q != t ==>
          b[e].fuzzyMatches[m].translations[q] == ma[m].translations[q])
    && b[e].fuzzyMatches[m].translations[t].target == ma[m].translations[t].target
  }

  /** `check_translation`: flip the `validated` flag of translation
      `transNum` of the `fuzzyNum`-th shown fuzzy match; out-of-range numbers
      change nothing; an empty example list raises. */
  function CheckTranslation(examples: seq<Example>, index: nat, fuzzyNum: int, transNum: int)
    : (r: Result<seq<Example>, ValidatorError>)
    ensures r.Failure? <==> index >= |examples|
    ensures r.Success? && !TargetInRange(examples, index, fuzzyNum, transNum) ==> r.value == examples
    ensures TargetInRange(examples, index, fuzzyNum, transNum) ==>
      var m := ShownPositions(examples[index].fuzzyMatches)[fuzzyNum - 1];
      && r.Success?
      && OnlyValidatedDiffers(examples, r.value, index, m, transNum - 1)
      && r.value[index].fuzzyMatches[m].translations[transNum - 1].validated.Some?
      && r.value[index].fuzzyMatches[m].translations[transNum - 1].Validated()
         == !examples[index].fuzzyMatches[m].translations[transNum - 1].Validated()
  {
    if index >= |examples| then Failure(ExampleIndexError(index))
    else if !TargetInRange(examples, index, fuzzyNum, transNum) then Success(examples)
    else
      var example := examples[index];
      var m := ShownPositions(example.fuzzyMatches)[fuzzyNum - 1];
      var fuzzy := example.fuzzyMatches[m];
      var t := fuzzy.translations[transNum - 1];
      var t' := t.(validated := Some(!t.Validated()));
      var fuzzy' := fuzzy.(translations := fuzzy.translations[transNum - 1 := t']);
      Success(examples[index := example.(fuzzyMatches := example.fuzzyMatches[m := fuzzy'])])
  }

  /** Toggling the same numbers twice restores every flag's boolean value;
      the representation is restored too when the flag was present. */
  lemma ToggleTwiceRestores(examples: seq<Example>, index: nat, fuzzyNum: int, transNum: int)
    requires TargetInRange(examples, index, fuzzyNum, transNum)
    ensures
      var once := CheckTranslation(examples, index, fuzzyNum, transNum).value;
      var m := ShownPositions(examples[index].fuzzyMatches)[fuzzyNum - 1];
      var twice := CheckTranslation(once, index, fuzzyNum, transNum);
      && twice.Success?
      && OnlyValidatedDiffers(examples, twice.value, index, m, transNum - 1)
      && twice.value[index].fuzzyMatches[m].translations[transNum - 1].Validated()
         == examples[index].fuzzyMatches[m].translations[transNum - 1].Validated()
      && (examples[index].fuzzyMatches[m].translations[transNum - 1].validated.Some? ==> twice.value == examples)
  {
    var once := CheckTranslation(examples, index, fuzzyNum, transNum).value;
    ToggleKeepsPositions(examples, index, fuzzyNum, transNum);
    var ms := examples[index].fuzzyMatches;
    var m := ShownPositions(ms)[fuzzyNum - 1];
    var twice := CheckTranslation(once, index, fuzzyNum, transNum).value;
    var t := transNum - 1;
    if ms[m].translations[t].validated.Some? {
      assert twice[index].fuzzyMatches[m].translations[t] == ms[m].translations[t];
      assert twice[index].fuzzyMatches[m].translations == ms[m].translations;
      assert twice[index].fuzzyMatches[m] == ms[m];
      assert twice[index].fuzzyMatches == ms;
      assert twice[index] == examples[index];
    }
  }

  /** A toggle changes no `translations` list's emptiness, so the same
      numbers still address the same translation afterwards. */
  lemma ToggleKeepsPositions(examples: seq<Example>, index: nat, fuzzyNum: int, transNum: int)
    requires TargetInRange(examples, index, fuzzyNum, transNum)
    ensures
      var once := CheckTranslation(examples, index, fuzzyNum, transNum).value;
      && ShownPositions(once[index].fuzzyMatches) == ShownPositions(examples[index].fuzzyMatches)
      && TargetInRange(once, index, fuzzyNum, transNum)
  {
    var once := CheckTranslation(examples, index, fuzzyNum, transNum).value;
    IndicesWhereSamePattern(HasTranslations(), examples[index].fuzzyMatches, HasTranslations(), once[index].fuzzyMatches);
  }

  /** `handle_number_input`: a number in idle mode is stored as the fuzzy
      number; a number in fuzzy-input mode checks that translation and
      returns to idle. */
  function HandleNumberInput(s: TranslationValidator, n: int): (r: Result<TranslationValidator, ValidatorError>)
    ensures !s.mode.fuzzyInput && !s.mode.transInput ==>
      r == Success(s.(mode := s.mode.(fuzzyInput := true, fuzzyNum := n)))
    ensures s.mode.fuzzyInput ==>
      match CheckTranslation(s.examples, s.index, s.mode.fuzzyNum, n)
      case Success(examples) => r == Success(s.(examples := examples, mode := Idle))
      case Failure(e) => r == Failure(e)
    ensures !s.mode.fuzzyInput && s.mode.transInput ==> r == Success(s)
  {
    if !s.mode.fuzzyInput && !s.mode.transInput then
      Success(s.(mode := s.mode.(fuzzyInput := true, fuzzyNum := n)))
    else if s.mode.fuzzyInput then
      match CheckTranslation(s.examples, s.index, s.mode.fuzzyNum, n)
      case Success(examples) => Success(s.(examples := examples, mode := Idle))
      case Failure(e) => Failure(e)
    else Success(s)
  }

  /** `previous_example`: step back when possible, resetting the input mode. */
  function PreviousExample(s: TranslationValidator): (r: TranslationValidator)
    ensures Navigation.InBounds(s.index, |s.examples|) ==> Navigation.InBounds(r.index, |r.examples|)
    ensures r.examples == s.examples && r.index == Navigation.Back(s.index)
    ensures r.index != s.index ==> r.mode == Idle
    ensures r.index == s.index ==> r == s
  {
    if s.index > 0 then s.(index := s.index - 1, mode := Idle) else s
  }

  /** `next_example`: step forward when possible, resetting the input mode. */
  function NextExample(s: TranslationValidator): (r: TranslationValidator)
    ensures Navigation.InBounds(s.index, |s.examples|) ==> Navigation.InBounds(r.index, |r.examples|)
    ensures r.examples == s.examples && r.index == Navigation.Forward(s.index, |s.examples|)
    ensures r.index != s.index ==> r.mode == Idle
    ensures r.index == s.index ==> r == s
  {
    if s.examples != [] && s.index < |s.examples| - 1 then s.(index := s.index + 1, mode := Idle) else s
  }

  /** `delete_example`: with examples and a confirmed dialog, remove the
      current example and re-clamp the index; the input mode is kept. */
  function DeleteExample(s: TranslationValidator, confirmed: bool): (r: TranslationValidator)
    requires Navigation.InBounds(s.index, |s.examples|)
    ensures Navigation.InBounds(r.index, |r.examples|)
    ensures s.examples == [] || !confirmed ==> r == s
    ensures s.examples != [] && confirmed ==>
      && |r.examples| == |s.examples| - 1
      && (forall j :: 0 <= j < s.index ==> r.examples[j] == s.examples[j])
      && (forall j :: s.index <= j < |r.examples| ==> r.examples[j] == s.examples[j + 1])
      && r.index == Navigation.IndexAfterDelete(s.index, |r.examples|)
      && r.mode == s.mode
  {
    if s.examples == [] || !confirmed then s
    else
      var (examples, index) := Navigation.DeleteAt(s.examples, s.index);
      s.(examples := examples, index := index)
  }

  /** The window's inputs: digit shortcuts, B, F and Delete (with the answer
      to the confirmation dialog). */
  datatype Event = Number(n: int) | BackKey | ForwardKey | DeleteKey(confirmed: bool)

  /** One event, dispatched as the window's shortcuts do. Only a number
      typed in fuzzy-input mode with no example left can fail; B and F never
      edit the examples. */
  function Step(s: TranslationValidator, e: Event): (r: Result<TranslationValidator, ValidatorError>)
    requires Navigation.InBounds(s.index, |s.examples|)
    ensures r.Failure? ==> e.Number? && s.mode.fuzzyInput && s.examples == []
    ensures r.Success? ==> Navigation.InBounds(r.value.index, |r.value.examples|)
    ensures e.BackKey? || e.ForwardKey? ==> r.Success? && r.value.examples == s.examples
  {
    match e
    case Number(n) => HandleNumberInput(s, n)
    case BackKey => Success(PreviousExample(s))
    case ForwardKey => Success(NextExample(s))
    case DeleteKey(confirmed) => Success(DeleteExample(s, confirmed))
  }

  /** The state after a sequence of events, stopping at the first error. */
  function Run(s: TranslationValidator, events: seq<Event>): (r: Result<TranslationValidator, ValidatorError>)
    requires Navigation.InBounds(s.index, |s.examples|)
    ensures r.Success? ==> Navigation.InBounds(r.value.index, |r.value.examples|)
    decreases |events|
  {
    if events == [] then Success(s)
    else
      match Step(s, events[0])
      case Failure(e) => Failure(e)
      case Success(next) => Run(next, events[1..])
  }

  /** The window as opened: first example, idle input mode. */
  function Initial(examples: seq<Example>): TranslationValidator {
    TranslationValidator(examples, 0, Idle)
  }

  /** `trans_input_mode` is never set: from the opened window, every reachable
      state has it false. */
  lemma {:induction false} TransInputNeverSet(s: TranslationValidator, events: seq<Event>)
    requires Navigation.InBounds(s.index, |s.examples|) && !s.mode.transInput
    ensures Run(s, events).Success? ==> !Run(s, events).value.mode.transInput
    decreases |events|
  {
    if events != [] {
      match Step(s, events[0])
      case Failure(_) =>
      case Success(next) =>
        TransInputNeverSet(next, events[1..]);
    }
  }

  /** The opened window satisfies the premise of `TransInputNeverSet`. */
  lemma InitialIdle(examples: seq<Example>, events: seq<Event>)
    ensures Run(Initial(examples), events).Success? ==> !Run(Initial(examples), events).value.mode.transInput
  {
    TransInputNeverSet(Initial(examples), events);
  }
}

=== FILE: wrappers.dfy ===
/** Option and Result types used for the optional JSON fields and for the
    error paths (Python exceptions) of the modelled scripts. */
module Wrappers {

  datatype Option<+T> = None | Some(value: T) {

    /** The value, or `default` when absent (Python's `dict.get(key, default)`). */
    function GetOr(default: T): T {
      match this
      case Some(v) => v
      case None => default
    }
  }

  datatype Result<+R, +E> = Success(value: R) | Failure(error: E)
}
